=== FILE: README.md ===
# Inkly reward and progression engine, in Dafny

A model of the reward and progression engine of the Inkly drawing game:

- the player record and its three mutators: gaining experience with a single-step level-up, unlocking a brush, recording an achievement;
- the prompt generator, with its word pools, its surprise pool and its per-tier time limits;
- the achievement catalogue and its once-only rules;
- the game manager, which covers:
  - creating players;
  - starting a session, with the difficulty chosen from the player's level. An unknown player id either fails fast, or gets a placeholder player created under that id (see "Left out" and "Findings" for how the code's own creation branch differs);
  - completing a session: the score breakdown, the counters and streak, the score grant, the brush unlocks, the achievements and their bonus grants, in the source's order;
  - multiplayer rooms as insertion-ordered member lists;
  - the leaderboard: a stable descending sort on (level, correct guesses), sliced and ranked from 1.

Modules, one per concern:

- `OrderedSet` (ordered_set.dfy): lists grown only by "append if absent".
- `Models` (models.dfy): difficulty, brushes, achievement ids, prompts, players, sessions and the player mutators.
- `Prompts` (prompts.dfy): the prompt generator.
- `Achievements` (achievements.dfy): the catalogue and the rule evaluation.
- `Scoring` (scoring.dfy): the score breakdown, with Python's truncating `int()`.
- `Ranking` (ranking.dfy): the stable descending sort of the leaderboard.
- `GameManager` (game_manager.dfy): the manager state and its operations.

The manager state keeps player records in an arena (`objs`) reached through handles, because the source shares object references. A session points at its player object, and the player table is a dict from key to object whose iteration order is insertion order (`keys`). Every operation is a pure function from the old state to the new one.

Fresh ids (`uuid4`) and random draws are parameters:
- the surprise roll is `roll`;
- `random.choice` over a pool picks index `pick % |pool|`;
- the MEDIUM/HARD coin is `hard`.

The external image classifier is an input to session completion: its guesses, its confidence and whether it guessed correctly.

The two copies of the domain classes (`models.py` and `templates_static/models.py`) match statement for statement and are modelled once. The two copies of the manager (`templates_static/game_manager.py` and `Inkly/templates_static/game_manager.py`) match statement for statement except in how session start treats an unknown player id. `GameManager.StartSession` takes that choice as a parameter (`FailFast` or `AutoCreate`).

## Model

| member | source | states |
|---|---|---|
| Models.NewPlayer | templates_static/models.py:45-53 | a new player has level 1, xp 0, zero streak and counters, brushes exactly [NORMAL] and no achievements; it is sane and has no pending level-up |
| Models.OpenSession | templates_static/models.py:85-95 | a new session records its id, player and prompt, with no drawing, no guesses, a miss, 0 seconds and score 0 |
| Models.AddXp | templates_static/models.py:56-66 | the level rises iff xp + points reaches level*100, and then by exactly one. Lifetime experience (experience needed to reach the level, plus xp) grows by exactly the points granted; nothing but level and xp changes |
| Models.AddXpZero | templates_static/models.py:58-66 | a zero grant to a player below its threshold returns false and changes nothing |
| Models.AddXpThreshold | templates_static/models.py:59-65 | granting exactly the threshold levels up once, keeps the xp and leaves no level-up pending |
| Models.AddXpStaysSettled | templates_static/models.py:56-66 | after a non-negative grant, xp is below the new threshold iff the grant stays below the sum of the current and next thresholds |
| Models.AddXpDoesNotCascade | templates_static/models.py:62-66 | a new player granted 300 reaches level 2 with 200 xp, which is already at the next threshold: the check is not repeated |
| Models.AddXpAtMostOneLevel | models.py:49-58 | one grant never raises the level by more than one |
| Models.UnlockBrush | templates_static/models.py:69-73 | the brush is present afterwards; existing brushes keep their order; at most one entry is appended, and it is the brush |
| Models.UnlockBrushIdempotent | templates_static/models.py:69-73 | unlocking twice is unlocking once; afterwards the brush occurs exactly once and every other brush keeps its count |
| Models.AddAchievement | templates_static/models.py:76-80 | the id is present afterwards and appended only if absent; existing ids keep their order |
| Models.AddAchievementIdempotent | models.py:65-68 | recording twice is recording once; the id occurs exactly once and no held id is lost |
| Models.KeysDistinct | templates_static/models.py:155-186 | distinct achievement ids have distinct catalogue keys |
| OrderedSet.Insert | templates_static/models.py:72-73 | append-if-absent keeps the old list as a prefix and adds only the element, and only when absent |
| OrderedSet.InsertIdempotent | templates_static/models.py:72-73 | append-if-absent twice equals once |
| OrderedSet.InsertKeepsNoDup | templates_static/game_manager.py:281-282 | append-if-absent keeps a duplicate-free list duplicate-free |
| OrderedSet.InsertExactlyOnce | templates_static/models.py:79-80 | after append-if-absent on a duplicate-free list, the element occurs once and other counts are unchanged |
| Prompts.Choose | templates_static/models.py:133 | the parameterised random choice always yields an entry of the pool |
| Prompts.Generate | templates_static/models.py:129-147 | with surprise requested and the roll above 0.7: a surprise-pool text, MEDIUM, 30 s, whatever the requested tier. Otherwise: a text from the requested tier's pool, that tier, and 20/25/30 s for EASY/MEDIUM/HARD |
| Prompts.PoolShapes | templates_static/models.py:103-125 | the pools hold 13, 12, 10 and 9 entries, each tier's pool is duplicate-free, and no entry belongs to two tier pools |
| Prompts.GenerateReachesEveryEntry | templates_static/models.py:132-145 | every entry of the requested pool and of the surprise pool can be produced |
| Prompts.GenerateLimits | templates_static/models.py:137-147 | every time limit is 20, 25 or 30; a HARD prompt never comes from a non-HARD request |
| Achievements.EvaluateIsDue | templates_static/models.py:190-222 | running the rules one by one against the progressively updated player awards exactly the reference list of due rules |
| Achievements.CheckAchievements | templates_static/models.py:190-222 | it awards, in the order first_draw, speed_demon, perfectionist, level_10, abstract_master, exactly the rules that hold and whose id was not held. It appends exactly those ids, changes nothing else and never awards night_owl |
| Achievements.DueMembers | templates_static/models.py:195-220 | an id is awarded iff it has a rule, the rule's condition holds and the id was not held |
| Achievements.CheckKeepsNoDup | templates_static/models.py:195-220 | the awarded ids are distinct and new, so the achievement list stays duplicate-free |
| Achievements.CheckTwiceAwardsNothing | models.py:171-195 | a second evaluation against the same session awards nothing: each achievement fires at most once |
| Achievements.CheckNeverRemoves | templates_static/models.py:190-222 | a held achievement stays held and is not awarded again |
| Achievements.FirstSessionRules | templates_static/models.py:194-220 | a first session guessed in under 5 s, by a player below streak 10 and level 10, earns first_draw and then speed_demon |
| Achievements.CatalogueBonuses | models.py:132-163 | the bonuses are 50, 100, 200, 500 and 150 for the five awarded ids, 75 for night_owl, and every bonus is positive |
| Scoring.Trunc | templates_static/game_manager.py:170 | `int()` on a real truncates toward zero: it is bounded from both sides, for either sign |
| Scoring.Score | templates_static/game_manager.py:167-176 | base 100 for a correct guess and 20 otherwise. The time bonus is never negative, is 0 once the limit is used up, and is otherwise the truncation of 5 points per second left. The confidence bonus is half the confidence, which may be fractional, truncated toward zero |
| Scoring.ConfidenceBonusDivision | templates_static/game_manager.py:173 | for a whole-number confidence the bonus equals floor division by 2 when the confidence is non-negative, and is one above it when the confidence is negative and odd |
| Scoring.FractionalConfidence | Inkly/templates_static/game_manager.py:100 | a fractional confidence is halved, then truncated: 87.5 gives 43 and -87.5 gives -43 |
| Scoring.ScoreLowerBound | Inkly/templates_static/game_manager.py:98-102 | with non-negative confidence the score is at least the base, and a correct guess scores at least 100 |
| Scoring.ScoreExample | templates_static/game_manager.py:167-176 | a correct guess on a 20 s prompt in 3 s with confidence 80 scores 100 + 85 + 40 = 225 |
| Scoring.TimeBonusTruncates | templates_static/game_manager.py:170 | fractional bonuses are truncated, never rounded: -0.5 and 0.75 both give 0, and 1.5 gives 1 |
| Ranking.Place | templates_static/game_manager.py:315-319 | inserting into a descending list keeps it descending and adds exactly the element, after every earlier entry with the same key |
| Ranking.Sort | templates_static/game_manager.py:315-319 | the result is descending on (level, correct guesses) and a permutation of the input. Entries with equal keys keep their input order |
| Ranking.Unique | templates_static/game_manager.py:315-319 | two descending lists with the same tie classes are equal, so the three properties of `Sort` fix its result |
| Ranking.SortIdempotent | templates_static/game_manager.py:315-319 | sorting a sorted list changes nothing |
| GameManager.EmptyValid | templates_static/game_manager.py:22-30 | a new manager satisfies the state invariant |
| GameManager.GetAfterPut | templates_static/game_manager.py:53-67 | after `players[key] = player`, looking up `key` yields that player and every other key yields what it yielded before |
| GameManager.Put | templates_static/game_manager.py:53 | dict assignment: a new key goes last, an existing key keeps its place and is rebound |
| GameManager.CreatePlayer | templates_static/game_manager.py:32-55 | a default player is stored under the fresh id and returned. The id is appended to the table order; every other stored player is untouched and the invariant holds |
| GameManager.Provision | templates_static/game_manager.py:89-93 | corrected auto-create: one default player named "Player_<id>" is stored under the caller's id only, and the invariant holds |
| GameManager.ProvisionAsWritten | templates_static/game_manager.py:89-93 | auto-create as written: one record reachable from the uuid key and the caller's key, with the uuid key naming the wrong id, which breaks the invariant |
| GameManager.AutoCreateListsTwice | templates_static/game_manager.py:89-93 | after the as-written auto-create, the roster holds the player twice and a leaderboard of limit 2 or more has two entries for it |
| GameManager.ProvisionListsOnce | templates_static/game_manager.py:89-93 | the corrected auto-create adds exactly one roster entry |
| GameManager.Open | templates_static/game_manager.py:106-123 | the new session refers to the player and carries the generated prompt for the player's tier; it is stored under its fresh id |
| GameManager.StartSession | templates_static/game_manager.py:69-123 | an unknown id is an error only under fail-fast; under auto-create the placeholder is stored and appended to the table order. Every previously stored player is unchanged, and the arena only grows; for a known player the table is unchanged. The session is stored, refers to the player and gets a prompt of the player's tier |
| GameManager.StartSessionFailFast | Inkly/templates_static/game_manager.py:47-49 | the fail-fast variant refuses an unknown id with a not-found error, creating neither player nor session, and otherwise behaves as the auto-create variant |
| GameManager.StartSessionDifficulty | templates_static/game_manager.py:97-104 | EASY below level 3, MEDIUM for levels 3 to 6, MEDIUM or HARD by the coin from level 7. A surprise prompt is always MEDIUM, 30 s, and HARD never occurs below level 7 |
| GameManager.StartSessionIgnoresHint | templates_static/game_manager.py:97-104 | the caller's difficulty argument has no effect on the result |
| GameManager.RecordOutcome | templates_static/game_manager.py:179-187 | one more drawing. A correct guess adds one correct guess and one streak; a miss resets the streak. Correct guesses never exceed drawings |
| GameManager.ReplayCounters | templates_static/game_manager.py:179-187 | over any run of completions the streak is the length of the trailing run of correct guesses (added to the old streak if there was no miss). Drawings grow by the run's length, correct guesses by its hits |
| GameManager.UnlockEach | templates_static/game_manager.py:244-247 | walking the unlock table adds exactly the table's brushes whose threshold the level meets, keeping the old brushes as a prefix |
| GameManager.UnlockBrushes | templates_static/game_manager.py:228-247 | NEON, SPRAY, MARKER and SPARKLE are owned afterwards iff they were owned before or the level is at least 3, 5, 7 or 10 respectively. Nothing else changes and the list stays duplicate-free |
| GameManager.UnlocksAreSpecials | templates_static/game_manager.py:236-241 | the unlock table lists exactly the brushes other than NORMAL |
| GameManager.UnlockBrushesIdempotent | Inkly/templates_static/game_manager.py:151-162 | repeating the unlock step is a no-op |
| GameManager.GrantBonuses | templates_static/game_manager.py:200-203 | granting a single bonus is one `add_xp` call with its xp; granting the bonuses one by one adds exactly their sum to lifetime experience and raises the level by at most one per bonus |
| GameManager.GrantBonusesSplit | templates_static/game_manager.py:200-203 | granting the bonuses of a concatenation is granting the first part's, then the second's, so every bonus passes through its own level check |
| GameManager.StackedBonusesClimbTwice | templates_static/game_manager.py:200-203 | from a new player the 200 and 500 bonuses granted in turn reach level 3 with 400 xp, whereas one grant of their 700 total reaches only level 2 |
| GameManager.DescribeBonuses | templates_static/game_manager.py:200-223 | the bonuses listed in the reply add up to exactly the experience the loop granted for the awarded achievements |
| GameManager.DescribeRoundTrip | templates_static/game_manager.py:217-223 | the reported ids are exactly the awarded ids, in order |
| GameManager.Reward | templates_static/game_manager.py:178-203 | counters move as a completion moves them. level_up holds iff the score alone reaches the threshold. Brushes follow the level after the score grant, not after the bonuses. The awarded ids are those due on the record after counters, score grant and brushes. Lifetime experience grows by the score plus the awarded bonuses |
| GameManager.Commit | templates_static/game_manager.py:157-164 | the completed session and the updated record are written back; the table, its order and the rooms are unchanged and the invariant holds |
| GameManager.CompleteSession | templates_static/game_manager.py:125-226 | an unknown session id fails and changes nothing. Otherwise the session records drawing, guesses, verdict, time and score, the breakdown is the score formula, and the score and reported xp are its total. Only the session's player changes, as `Reward` says. new_level is the level after the bonuses when level_up holds, else none |
| GameManager.CompleteTwiceCountsTwice | templates_static/game_manager.py:153-164 | completing one session twice succeeds both times and counts two drawings |
| GameManager.FirstDrawingCounters | templates_static/game_manager.py:179-193 | a new player's first drawing, guessed and scored 225, reaches level 2 with 125 xp and unlocks no brush |
| GameManager.FirstDrawingExample | templates_static/game_manager.py:190-203 | that drawing reports level_up, awards first_draw and speed_demon, and ends at level 3 with 75 xp with NEON still locked |
| GameManager.CreateRoom | templates_static/game_manager.py:249-265 | the room is stored with the creator as its only member; an existing room of that id is replaced and the others are unchanged |
| GameManager.JoinRoom | templates_static/game_manager.py:267-286 | joining succeeds iff the room exists, and a failed join changes nothing. On success the member is present, the order is kept, at most that member is appended and nothing is duplicated |
| GameManager.JoinRoomIdempotent | Inkly/templates_static/game_manager.py:170-176 | joining twice is joining once |
| GameManager.Resolve | templates_static/game_manager.py:302 | the lookup keeps exactly the ids that resolve to a stored player, in order, each mapped to its record |
| GameManager.RoomPlayers | templates_static/game_manager.py:288-302 | an unknown room has no players; otherwise the members that resolve to a stored player are returned in joining order |
| GameManager.KnownMembers | templates_static/game_manager.py:302 | an id is listed iff it is a member and a stored player |
| GameManager.KnownAll | templates_static/game_manager.py:302 | when every member is stored, nobody is dropped |
| GameManager.RosterIsTable | templates_static/game_manager.py:315-316 | in a valid state the ranked values are the player table itself: entry i is the player stored under the i-th key, and every stored player is listed |
| GameManager.Standings | templates_static/game_manager.py:315-319 | all players are ranked descending on (level, correct guesses), ties in insertion order |
| GameManager.Accuracy | templates_static/game_manager.py:330 | accuracy is 0 without drawings, otherwise correct guesses over drawings in percent, and lies in [0, 100] whenever correct guesses do not exceed drawings |
| GameManager.Leaderboard | templates_static/game_manager.py:304-335 | the result has the length of the Python slice `[:limit]`: min(limit, n) for a non-negative limit, and n + limit (at least 0) for a negative one. Ranks run 1..n in standings order. Each entry reports its player's name, level, xp, drawings, streak and accuracy, and the levels never increase |
| GameManager.LeaderboardSound | templates_static/game_manager.py:315-334 | in a valid state every accuracy lies in [0, 100] and no player record is ranked twice |
| GameManager.RosterIdsDistinct | templates_static/game_manager.py:315-316 | in a valid state no two roster entries share an id |

## Left out

- The image classifier services (`gemini_service.py` and its copies) are left out. They make HTTP calls to a remote model and parse free text. Their result enters completion as a `Classification` with the source's defaults already applied.
- The web layer (`main.py` and its copies) and the debug and connectivity scripts are left out. They are routing and printing glue around the manager.
- Timestamps (`last_played`, `started_at`) are not modelled. No rule reads them.
- `uuid4` and `random` are parameters: the fresh ids and the `Dice` draws. A room-id collision overwrites, as a dict assignment does.
- GameManager.Accuracy: states the exact ratio, not Python's `round(..., 1)` to one decimal place.
- Scoring.Score: `time_spent` is an exact real, not an IEEE double, so float rounding is not modelled.
- The night_owl achievement is in the catalogue but no rule awards it. The model records that and no more.
- The achievement list is modelled as a list of catalogue ids (`AchievementId`), not of arbitrary strings. The game only ever records catalogue keys, and `AchievementId.Key` gives each id's string.
- Models.Player: a Python player holds whatever values its fields are assigned. The model's `Sane` invariant (level at least 1, correct guesses at most drawings, streak at most correct guesses, NORMAL owned, no duplicate lists) covers only records reached through the manager.
- Models.AddXp: xp is not kept below `level * 100`. The single-step level-up leaves a large grant pending, so the model proves the exact condition for staying below it (`AddXpStaysSettled`) instead of an unconditional bound.
- GameManager.StartSession: under `AutoCreate` the placeholder player is stored once, under the caller's id (`GameManager.Provision`). The code's double store under a uuid key and the caller's id is modelled only by `GameManager.ProvisionAsWritten`. The state that leaves is outside the `Valid` invariant that `GameManager.CompleteSession` and the other operations require.
- GameManager.CompleteSession: completing an already completed session is accepted and scored again, as the code does.
- GameManager.CompleteSession: confidence is an unbounded real. One classifier converts it with `int()` and the other passes the parsed number on as is, and neither clamps it. A negative confidence can therefore make a score, and with it xp, negative.

## Findings

| source | as written | input that shows it | evidently intended | confidence | as-written member | corrected member |
|---|---|---|---|---|---|---|
| templates_static/game_manager.py:89-93 | the unknown-player branch of `start_session` calls `create_player`, which stores the new object under a fresh uuid. It then sets the object's id to the caller's id and stores the same object again under that id | an empty manager and `start_session("alice")`: the players dict holds the one player under the uuid and under "alice", and `get_leaderboard()` lists "Player_alice" twice | the placeholder player is stored once, under the caller's id | not executed | GameManager.ProvisionAsWritten, GameManager.AutoCreateListsTwice | GameManager.Provision, GameManager.ProvisionListsOnce |

=== FILE: achievements.dfy ===
/** The achievement catalogue and the once-only rules that award entries of
    it after a completed session. */
module Achievements {
  import opened Models
  import OrderedSet

  datatype Achievement = Achievement(name: string, description: string, xp: int)

  /** The catalogue entry of each id. `NightOwl` is defined but no rule ever
      awards it. */
  function Info(id: AchievementId): Achievement {
    match id
    case FirstDraw => Achievement("Primeiro Traço", "Complete seu primeiro desenho", 50)
    case SpeedDemon => Achievement("Demônio da Velocidade", "Complete um desenho em menos de 5 segundos", 100)
    case Perfectionist => Achievement("Perfeccionista", "Acerte 10 desenhos seguidos", 200)
    case NightOwl => Achievement("Coruja Noturna", "Jogue depois da meia-noite", 75)
    case Level10 => Achievement("Artista Dedicado", "Alcance o nível 10", 500)
    case AbstractMaster => Achievement("Mestre Abstrato", "Confunda a IA 5 vezes", 150)
  }

  /** The rules in the order they are evaluated. */
  const Rules: seq<AchievementId> := [FirstDraw, SpeedDemon, Perfectionist, Level10, AbstractMaster]

  /** The condition of each rule, read from the player's counters (already
      updated for this session) and from the completed session. */
  predicate Condition(id: AchievementId, p: Player, s: DrawingSession) {
    match id
    case FirstDraw => p.totalDrawings == 1
    case SpeedDemon => s.timeSpent < 5.0 && s.correct
    case Perfectionist => p.streak >= 10
    case Level10 => p.level >= 10
    case AbstractMaster => p.totalDrawings - p.correctGuesses >= 5
    case NightOwl => false
  }

  /** Reference definition: the rules of `rules`, in order, that hold and
      whose id the player does not hold yet. */
  function Due(rules: seq<AchievementId>, p: Player, s: DrawingSession): seq<AchievementId> {
    if rules == [] then []
    else
      (if Condition(rules[0], p, s) && rules[0] !in p.achievements then [rules[0]] else [])
      + Due(rules[1..], p, s)
  }

  /** The player after evaluation and the ids awarded, in award order. */
  datatype Check = Check(player: Player, awarded: seq<AchievementId>)

  /** Runs the rules in order; each awards its id when its condition holds
      and the (progressively updated) player does not hold it yet. */
  function Evaluate(c: Check, rules: seq<AchievementId>, s: DrawingSession): Check
    decreases |rules|
  {
    if rules == [] then c
    else
      var id := rules[0];
      var next :=
        if Condition(id, c.player, s) && id !in c.player.achievements then
          Check(AddAchievement(c.player, id), c.awarded + [id])
        else c;
      Evaluate(next, rules[1..], s)
  }

  /** One rule, run on a player that differs from `p` only by having
      `done` appended to its achievements, where `id` is not in `done`. */
  lemma EvaluateStep(p: Player, done: seq<AchievementId>, rules: seq<AchievementId>, s: DrawingSession)
    requires rules != [] && rules[0] !in done
    ensures
      var step := if Condition(rules[0], p, s) && rules[0] !in p.achievements then [rules[0]] else [];
      Evaluate(Check(p.(achievements := p.achievements + done), done), rules, s)
      == Evaluate(Check(p.(achievements := p.achievements + (done + step)), done + step), rules[1..], s)
  {
    var id := rules[0];
    var q := p.(achievements := p.achievements + done);
    assert Condition(id, q, s) == Condition(id, p, s);
    assert id in q.achievements <==> id in p.achievements;
    assert p.achievements + done + [id] == p.achievements + (done + [id]);
    assert done + [] == done;
  }

  /** Evaluating `rules` after `done` were awarded appends exactly the
      reference `Due(rules)` of the original player, because the only field
      that changes along the way is the achievement list, which no condition
      reads, and no rule still to run has been awarded already. */
  lemma {:induction false} EvaluateIsDue(p: Player, done: seq<AchievementId>, rules: seq<AchievementId>, s: DrawingSession)
    requires OrderedSet.NoDup(rules)
    requires forall id :: id in done ==> id !in rules
    ensures Evaluate(Check(p.(achievements := p.achievements + done), done), rules, s)
         == Check(p.(achievements := p.achievements + done + Due(rules, p, s)), done + Due(rules, p, s))
    decreases |rules|
  {
    if rules == [] {
      assert done + [] == done;
      assert p.achievements + done + [] == p.achievements + done;
    } else {
      var id := rules[0];
      var step := if Condition(id, p, s) && id !in p.achievements then [id] else [];
      EvaluateStep(p, done, rules, s);
      assert OrderedSet.NoDup(rules[1..]);
      forall x | x in done + step
        ensures x !in rules[1..]
      {
        if x == id {
          assert rules == [id] + rules[1..];
        }
      }
      EvaluateIsDue(p, done + step, rules[1..], s);
      assert Due(rules, p, s) == step + Due(rules[1..], p, s);
      assert done + step + Due(rules[1..], p, s) == done + Due(rules, p, s);
      assert p.achievements + (done + step) + Due(rules[1..], p, s) == p.achievements + done + Due(rules, p, s);
    }
  }

  /** Evaluates the five rules in their fixed order, from a player whose
      counters already reflect this session. */
  function CheckAchievements(p: Player, s: DrawingSession): (r: Check)
    ensures r.awarded == Due(Rules, p, s)
    ensures r.player.achievements == p.achievements + r.awarded
    ensures r.player == p.(achievements := r.player.achievements)
    ensures forall id :: id in r.awarded ==> id !in p.achievements && Condition(id, p, s)
    ensures NightOwl !in r.awarded
  {
    EvaluateIsDue(p, [], Rules, s);
    assert p.(achievements := p.achievements + []) == p;
    forall id | id in Due(Rules, p, s)
      ensures id !in p.achievements && Condition(id, p, s) && id != NightOwl
    {
      DueMembers(Rules, p, s, id);
    }
    Evaluate(Check(p, []), Rules, s)
  }

  /** An id is awarded exactly when its rule holds and the player lacked it:
      both directions of the once-only guard. */
  lemma {:induction false} DueMembers(rules: seq<AchievementId>, p: Player, s: DrawingSession, id: AchievementId)
    ensures id in Due(rules, p, s) <==> id in rules && Condition(id, p, s) && id !in p.achievements
  {
    if rules != [] {
      DueMembers(rules[1..], p, s, id);
      assert rules == [rules[0]] + rules[1..];
    }
  }

  /** The awarded ids are distinct and disjoint from those already held, so
      a duplicate-free achievement list stays duplicate-free. */
  lemma CheckKeepsNoDup(p: Player, s: DrawingSession)
    requires OrderedSet.NoDup(p.achievements)
    ensures OrderedSet.NoDup(CheckAchievements(p, s).awarded)
    ensures OrderedSet.NoDup(CheckAchievements(p, s).player.achievements)
  {
    DueNoDup(Rules, p, s);
    var d := Due(Rules, p, s);
    forall id | id in d
      ensures id !in p.achievements
    {
      DueMembers(Rules, p, s, id);
    }
    var all := p.achievements + d;
    forall i, j | 0 <= i < j < |all|
      ensures all[i] != all[j]
    {
      if j >= |p.achievements| && i < |p.achievements| {
        assert all[j] in d;
      }
    }
  }

  lemma {:induction false} DueNoDup(rules: seq<AchievementId>, p: Player, s: DrawingSession)
    requires OrderedSet.NoDup(rules)
    ensures OrderedSet.NoDup(Due(rules, p, s))
  {
    if rules != [] {
      assert OrderedSet.NoDup(rules[1..]);
      DueNoDup(rules[1..], p, s);
      DueMembers(rules[1..], p, s, rules[0]);
    }
  }

  /** Once-only: evaluating the rules a second time against the same session
      awards nothing more. */
  lemma CheckTwiceAwardsNothing(p: Player, s: DrawingSession)
    ensures CheckAchievements(CheckAchievements(p, s).player, s).awarded == []
  {
    var q := CheckAchievements(p, s).player;
    forall id | id in Rules
      ensures !Condition(id, q, s) || id in q.achievements
    {
      DueMembers(Rules, p, s, id);
    }
    DueNone(Rules, q, s);
  }

  /** No rule of `rules` is due, so nothing is awarded. */
  lemma {:induction false} DueNone(rules: seq<AchievementId>, p: Player, s: DrawingSession)
    requires forall id :: id in rules ==> !Condition(id, p, s) || id in p.achievements
    ensures Due(rules, p, s) == []
  {
    if rules != [] {
      assert rules[0] in rules;
      assert forall id :: id in rules[1..] ==> id in rules;
      DueNone(rules[1..], p, s);
    }
  }

  /** A first session guessed in under 5 seconds, by a player holding
      nothing yet, earns first-draw and speed-demon, in that order. */
  lemma FirstSessionRules(p: Player, s: DrawingSession)
    requires p.totalDrawings == 1 && p.correctGuesses == 1 && p.streak < 10 && p.level < 10
    requires p.achievements == [] && s.correct && s.timeSpent < 5.0
    ensures Due(Rules, p, s) == [FirstDraw, SpeedDemon]
  {
    assert Rules[1..][1..] == [Perfectionist, Level10, AbstractMaster];
    DueNone([Perfectionist, Level10, AbstractMaster], p, s);
  }

  /** Held achievements are never withdrawn and never awarded again. */
  lemma CheckNeverRemoves(p: Player, s: DrawingSession, id: AchievementId)
    requires id in p.achievements
    ensures id in CheckAchievements(p, s).player.achievements
    ensures id !in CheckAchievements(p, s).awarded
  {
  }

  /** Bonus experience per id, fixed by the catalogue. */
  lemma CatalogueBonuses()
    ensures Info(FirstDraw).xp == 50 && Info(SpeedDemon).xp == 100
    ensures Info(Perfectionist).xp == 200 && Info(Level10).xp == 500
    ensures Info(AbstractMaster).xp == 150 && Info(NightOwl).xp == 75
    ensures forall id: AchievementId :: Info(id).xp > 0
  {
  }
}

=== FILE: game_manager.dfy ===
/** The in-memory game manager: players, sessions and rooms, and the
    operations that create players, start and complete sessions, manage room
    membership and rank players.

    Player records live in an arena `objs` and are reached through handles,
    because the source keeps object references: a session refers to its
    player object, and one branch of session start stores one object under
    two keys of the player table. `players` is that table and `keys` its
    insertion order (the iteration order of a Python dict). Fresh ids and the
    random draws are parameters. */
module GameManager {
  import opened Models
  import OrderedSet
  import Prompts
  import Achievements
  import Scoring
  import Ranking

  datatype Error = PlayerNotFound | SessionNotFound

  datatype Result<T> = Ok(value: T) | Err(error: Error)

  datatype State = State(
    objs: seq<Player>,
    players: map<string, nat>,
    keys: seq<string>,
    sessions: map<string, DrawingSession>,
    rooms: map<string, seq<string>>)

  /** A new manager: no players, sessions or rooms. */
  const Empty: State := State([], map[], [], map[], map[])

  /** The player table is an insertion-ordered dict whose values are handles
      into the arena. */
  ghost predicate Store(s: State) {
    && OrderedSet.NoDup(s.keys)
    && (forall k :: k in s.players <==> k in s.keys)
    && (forall k :: k in s.players ==> s.players[k] < |s.objs|)
  }

  /** The invariant every operation keeps: each stored player is stored under
      its own id, sessions refer to existing records, every record is sane and
      room member lists are duplicate-free. */
  ghost predicate Valid(s: State) {
    && Store(s)
    && (forall k :: k in s.players ==> s.objs[s.players[k]].id == k)
    && (forall sid :: sid in s.sessions ==> s.sessions[sid].player < |s.objs|)
    && (forall i :: 0 <= i < |s.objs| ==> s.objs[i].Sane())
    && (forall r :: r in s.rooms ==> OrderedSet.NoDup(s.rooms[r]))
  }

  lemma EmptyValid()
    ensures Valid(Empty)
  {
  }

  /** The player record stored under `key`, if any. */
  function GetPlayer(s: State, key: string): (r: Option<Player>)
    requires Store(s)
    ensures r.Some? <==> key in s.players
    ensures r.Some? ==> r.value == s.objs[s.players[key]]
  {
    if key in s.players then Some(s.objs[s.players[key]]) else None
  }

  /** Reading after a dict assignment: the assigned key yields the record
      at the new handle, every other key what it yielded before. */
  lemma GetAfterPut(s: State, key: string, handle: nat, other: string)
    requires Store(s) && handle < |s.objs|
    ensures GetPlayer(Put(s, key, handle), other)
         == if other == key then Some(s.objs[handle]) else GetPlayer(s, other)
  {
  }

  /** Dict assignment `players[key] = handle`: a new key goes last, an
      existing key keeps its place and is rebound. */
  function Put(s: State, key: string, handle: nat): (r: State)
    requires Store(s) && handle < |s.objs|
    ensures Store(r)
    ensures r.players == s.players[key := handle]
    ensures key in s.players ==> r.keys == s.keys
    ensures key !in s.players ==> r.keys == s.keys + [key]
    ensures r.objs == s.objs && r.sessions == s.sessions && r.rooms == s.rooms
  {
    s.(players := s.players[key := handle], keys := if key in s.players then s.keys else s.keys + [key])
  }

  /** Result of creating a player. */
  datatype Created = Created(state: State, player: Player)

  /** Creates a player with default stats under the fresh id `id`. An id that
      is already taken is overwritten, as a dict assignment does. */
  function CreatePlayer(s: State, name: string, id: string): (r: Created)
    requires Valid(s)
    ensures Valid(r.state)
    ensures r.player == NewPlayer(id, name)
    ensures GetPlayer(r.state, id) == Some(r.player)
    ensures id !in s.players ==> r.state.keys == s.keys + [id]
    ensures id in s.players ==> r.state.keys == s.keys
    ensures forall k :: k in s.players && k != id ==> GetPlayer(r.state, k) == GetPlayer(s, k)
    ensures s.objs <= r.state.objs
    ensures r.state.sessions == s.sessions && r.state.rooms == s.rooms
  {
    var p := NewPlayer(id, name);
    var s1 := s.(objs := s.objs + [p]);
    Created(Put(s1, id, |s.objs|), p)
  }

  // ---------------------------------------------------------------------
  // Starting a session

  /** What to do when a session is started for an unknown player id. */
  datatype UnknownPlayer =
    | FailFast   // raise "player not found"
    | AutoCreate // create a player under that id

  /** The random draws of a session start: the surprise roll, the pool
      choice, and the MEDIUM/HARD coin used from level 7 on. */
  datatype Dice = Dice(roll: real, pick: nat, hard: bool)

  /** The difficulty a player of `level` gets; the caller's hint plays no
      part. */
  function Tier(level: int, hard: bool): Difficulty {
    if level < 3 then Easy
    else if level < 7 then Medium
    else if hard then Hard else Medium
  }

  /** Result of starting a session. */
  datatype Started = Started(state: State, session: DrawingSession)

  /** Stores a placeholder player under the unknown id `key`, named after it. */
  function Provision(s: State, key: string): (r: State)
    requires Valid(s) && key !in s.players
    ensures Valid(r)
    ensures GetPlayer(r, key) == Some(NewPlayer(key, "Player_" + key))
    ensures r.keys == s.keys + [key]
    ensures s.objs <= r.objs
    ensures forall k :: k in s.players ==> GetPlayer(r, k) == GetPlayer(s, k)
    ensures r.sessions == s.sessions && r.rooms == s.rooms
  {
    CreatePlayer(s, "Player_" + key, key).state
  }

  /** Opens a session for the player at `handle`. */
  function Open(s: State, handle: nat, surprise: bool, dice: Dice, sessionId: string): (r: Started)
    requires Valid(s) && handle < |s.objs|
    ensures Valid(r.state)
    ensures r.session == OpenSession(sessionId, handle,
      Prompts.Generate(Tier(s.objs[handle].level, dice.hard), surprise, dice.roll, dice.pick))
    ensures r.state == s.(sessions := s.sessions[sessionId := r.session])
  {
    var p := s.objs[handle];
    var prompt := Prompts.Generate(Tier(p.level, dice.hard), surprise, dice.roll, dice.pick);
    var session := OpenSession(sessionId, handle, prompt);
    Started(s.(sessions := s.sessions[sessionId := session]), session)
  }

  /** Starts a session for `playerId` with the fresh session id `sessionId`.
      The difficulty follows the player's level, never the hint; an unknown
      player either fails or is created, per `policy`. */
  function StartSession(s: State, playerId: string, hint: Difficulty, surprise: bool,
                        dice: Dice, sessionId: string, policy: UnknownPlayer): (r: Result<Started>)
    requires Valid(s)
    ensures r.Err? <==> playerId !in s.players && policy == FailFast
    ensures r.Err? ==> r.error == PlayerNotFound
    ensures r.Ok? ==> Valid(r.value.state)
    ensures r.Ok? ==> playerId in r.value.state.players
    ensures r.Ok? ==>
      var t := r.value.state;
      var p := t.objs[t.players[playerId]];
      && r.value.session.player == t.players[playerId]
      && t.sessions == s.sessions[sessionId := r.value.session]
      && r.value.session.prompt == Prompts.Generate(Tier(p.level, dice.hard), surprise, dice.roll, dice.pick)
      && r.value.session.id == sessionId
      && r.value.session.drawing == None && r.value.session.score == 0
    ensures r.Ok? && playerId in s.players ==>
      r.value.state.objs == s.objs && r.value.state.players == s.players && r.value.state.keys == s.keys
    ensures r.Ok? && playerId !in s.players ==>
      && GetPlayer(r.value.state, playerId) == Some(NewPlayer(playerId, "Player_" + playerId))
      && r.value.state.keys == s.keys + [playerId]
    ensures r.Ok? ==> s.objs <= r.value.state.objs
    ensures r.Ok? ==> forall k :: k in s.players ==> GetPlayer(r.value.state, k) == GetPlayer(s, k)
    ensures r.Ok? ==> r.value.state.rooms == s.rooms
  {
    if playerId in s.players then
      Ok(Open(s, s.players[playerId], surprise, dice, sessionId))
    else if policy == FailFast then
      Err(PlayerNotFound)
    else
      var s1 := Provision(s, playerId);
      Ok(Open(s1, s1.players[playerId], surprise, dice, sessionId))
  }

  /** The prompt's tier: EASY below level 3, MEDIUM from 3 to 6, and from
      level 7 MEDIUM or HARD by the coin, unless a surprise prompt (always
      MEDIUM) is drawn. A HARD prompt is thus impossible below level 7. */
  lemma StartSessionDifficulty(s: State, playerId: string, hint: Difficulty, surprise: bool,
                               dice: Dice, sessionId: string, policy: UnknownPlayer)
    requires Valid(s)
    requires StartSession(s, playerId, hint, surprise, dice, sessionId, policy).Ok?
    ensures
      var st := StartSession(s, playerId, hint, surprise, dice, sessionId, policy).value;
      var level := st.state.objs[st.session.player].level;
      var d := st.session.prompt.difficulty;
      && (Prompts.SurpriseFires(surprise, dice.roll) ==> d == Medium && st.session.prompt.timeLimit == 30)
      && (!Prompts.SurpriseFires(surprise, dice.roll) && level < 3 ==> d == Easy)
      && (!Prompts.SurpriseFires(surprise, dice.roll) && 3 <= level < 7 ==> d == Medium)
      && (!Prompts.SurpriseFires(surprise, dice.roll) && level >= 7 ==> (d == Hard <==> dice.hard) && d != Easy)
      && (level < 7 ==> d != Hard)
  {
  }

  /** The fail-fast variant refuses an unknown id and leaves the state as it
      was; for a known player both variants agree. */
  lemma StartSessionFailFast(s: State, playerId: string, hint: Difficulty, surprise: bool,
                             dice: Dice, sessionId: string)
    requires Valid(s)
    ensures playerId !in s.players ==> StartSession(s, playerId, hint, surprise, dice, sessionId, FailFast) == Err(PlayerNotFound)
    ensures playerId in s.players ==>
      StartSession(s, playerId, hint, surprise, dice, sessionId, FailFast)
      == StartSession(s, playerId, hint, surprise, dice, sessionId, AutoCreate)
  {
  }

  /** The caller's difficulty hint has no effect at all. */
  lemma StartSessionIgnoresHint(s: State, playerId: string, h1: Difficulty, h2: Difficulty, surprise: bool,
                                dice: Dice, sessionId: string, policy: UnknownPlayer)
    requires Valid(s)
    ensures StartSession(s, playerId, h1, surprise, dice, sessionId, policy)
         == StartSession(s, playerId, h2, surprise, dice, sessionId, policy)
  {
  }

  // ---------------------------------------------------------------------
  // Completing a session

  /** The counters a completion moves: one more drawing; on a correct guess
      one more correct guess and a longer streak, otherwise a broken streak. */
  function RecordOutcome(p: Player, correct: bool): (r: Player)
    ensures r.totalDrawings == p.totalDrawings + 1
    ensures correct ==> r.correctGuesses == p.correctGuesses + 1 && r.streak == p.streak + 1
    ensures !correct ==> r.correctGuesses == p.correctGuesses && r.streak == 0
    ensures r == p.(totalDrawings := r.totalDrawings, correctGuesses := r.correctGuesses, streak := r.streak)
    ensures p.Sane() ==> r.Sane()
  {
    var q := p.(totalDrawings := p.totalDrawings + 1);
    if correct then q.(correctGuesses := q.correctGuesses + 1, streak := q.streak + 1)
    else q.(streak := 0)
  }

  /** Consecutive `true`s at the end of `outcomes`. */
  function TrailingRun(outcomes: seq<bool>): nat {
    if outcomes == [] || !outcomes[|outcomes| - 1] then 0
    else TrailingRun(outcomes[..|outcomes| - 1]) + 1
  }

  /** Number of `true`s in `outcomes`. */
  function Hits(outcomes: seq<bool>): nat {
    if outcomes == [] then 0
    else Hits(outcomes[..|outcomes| - 1]) + (if outcomes[|outcomes| - 1] then 1 else 0)
  }

  /** The counters after a run of completions with the given verdicts. */
  function Replay(p: Player, outcomes: seq<bool>): Player
    decreases |outcomes|
  {
    if outcomes == [] then p
    else RecordOutcome(Replay(p, outcomes[..|outcomes| - 1]), outcomes[|outcomes| - 1])
  }

  /** Over any run of completions the streak is the number of correct
      guesses since the last miss (carrying on from the starting streak when
      there was no miss), the drawing count grows by the run's length and the
      correct-guess count by its hits. */
  lemma {:induction false} ReplayCounters(p: Player, outcomes: seq<bool>)
    ensures Replay(p, outcomes).totalDrawings == p.totalDrawings + |outcomes|
    ensures Replay(p, outcomes).correctGuesses == p.correctGuesses + Hits(outcomes)
    ensures Replay(p, outcomes).streak ==
      if TrailingRun(outcomes) == |outcomes| then p.streak + |outcomes| else TrailingRun(outcomes)
    decreases |outcomes|
  {
    if outcomes != [] {
      var init := outcomes[..|outcomes| - 1];
      ReplayCounters(p, init);
      if outcomes[|outcomes| - 1] && TrailingRun(init) < |init| {
        assert TrailingRun(outcomes) < |outcomes|;
      }
    }
  }

  /** Level thresholds of the special brushes; `Normal` is always owned. */
  function Threshold(b: BrushType): nat {
    match b
    case Normal => 0
    case Neon => 3
    case Spray => 5
    case Marker => 7
    case Sparkle => 10
  }

  /** The unlock table in its iteration order. */
  const Unlocks: seq<BrushType> := [Neon, Spray, Marker, Sparkle]

  function UnlockEach(p: Player, table: seq<BrushType>): (r: Player)
    ensures forall b :: b in r.brushes <==> b in p.brushes || (b in table && p.level >= Threshold(b))
    ensures p.brushes <= r.brushes
    ensures OrderedSet.NoDup(p.brushes) ==> OrderedSet.NoDup(r.brushes)
    ensures r == p.(brushes := r.brushes)
    decreases |table|
  {
    if table == [] then p
    else
      var q := if p.level >= Threshold(table[0]) then UnlockBrush(p, table[0]) else p;
      var r := UnlockEach(q, table[1..]);
      assert forall b :: b in table <==> b == table[0] || b in table[1..];
      r
  }

  /** Unlocks every special brush whose threshold the player's level meets;
      brushes already owned stay, in their order. */
  function UnlockBrushes(p: Player): (r: Player)
    ensures forall b :: b in r.brushes <==> b in p.brushes || (b != Normal && p.level >= Threshold(b))
    ensures p.brushes <= r.brushes
    ensures OrderedSet.NoDup(p.brushes) ==> OrderedSet.NoDup(r.brushes)
    ensures r == p.(brushes := r.brushes)
  {
    UnlocksAreSpecials();
    UnlockEach(p, Unlocks)
  }

  /** The unlock table lists exactly the brushes other than `Normal`. */
  lemma UnlocksAreSpecials()
    ensures forall b :: b in Unlocks <==> b != Normal
  {
    forall b ensures b in Unlocks <==> b != Normal {
      match b
      case Normal =>
      case Neon => assert Unlocks[0] == b;
      case Spray => assert Unlocks[1] == b;
      case Marker => assert Unlocks[2] == b;
      case Sparkle => assert Unlocks[3] == b;
    }
  }

  /** Repeating the unlock step changes nothing. */
  lemma UnlockBrushesIdempotent(p: Player)
    requires OrderedSet.NoDup(p.brushes)
    ensures UnlockBrushes(UnlockBrushes(p)) == UnlockBrushes(p)
  {
    var q := UnlockBrushes(p);
    var r := UnlockBrushes(q);
    assert forall b :: b in r.brushes ==> b in q.brushes;
    NoNewMeansSame(q.brushes, r.brushes);
  }

  /** An extension that adds no new element and stays duplicate-free is no
      extension. */
  lemma NoNewMeansSame(a: seq<BrushType>, b: seq<BrushType>)
    requires a <= b && OrderedSet.NoDup(b)
    requires forall x :: x in b ==> x in a
    ensures a == b
  {
    FirstPastPrefix(a, b);
  }

  lemma FirstPastPrefix(a: seq<BrushType>, b: seq<BrushType>)
    requires a <= b
    requires forall x :: x in b ==> x in a
    ensures |b| > |a| ==> b[|a|] in a
  {
  }

  /** Sum of the catalogue bonuses of `ids`. */
  function BonusTotal(ids: seq<AchievementId>): int {
    if ids == [] then 0 else Achievements.Info(ids[0]).xp + BonusTotal(ids[1..])
  }

  /** Grants the bonus of each id in turn, each through its own level check. */
  function GrantBonuses(p: Player, ids: seq<AchievementId>): (r: Player)
    ensures |ids| == 1 ==> r == AddXp(p, Achievements.Info(ids[0]).xp).player
    ensures LifetimeXp(r) == LifetimeXp(p) + BonusTotal(ids)
    ensures p.level <= r.level <= p.level + |ids|
    ensures r == p.(level := r.level, xp := r.xp)
    decreases |ids|
  {
    if ids == [] then p
    else GrantBonuses(AddXp(p, Achievements.Info(ids[0]).xp).player, ids[1..])
  }

  /** Granting the bonuses of `a + b` is granting those of `a`, then those
      of `b`: together with the single-id case this makes every bonus a
      separate grant with its own level check. */
  lemma {:induction false} GrantBonusesSplit(p: Player, a: seq<AchievementId>, b: seq<AchievementId>)
    ensures GrantBonuses(p, a + b) == GrantBonuses(GrantBonuses(p, a), b)
    decreases |a|
  {
    if a == [] {
      assert a + b == b;
    } else {
      assert (a + b)[1..] == a[1..] + b;
      GrantBonusesSplit(AddXp(p, Achievements.Info(a[0]).xp).player, a[1..], b);
    }
  }

  /** Separate grants are not one batched grant: from a new player the
      perfectionist and level-10 bonuses (200 and 500) climb two levels,
      to level 3 with 400 xp, where one grant of their 700 would climb one. */
  lemma StackedBonusesClimbTwice(id: string, name: string)
    ensures GrantBonuses(NewPlayer(id, name), [Perfectionist, Level10]).level == 3
    ensures GrantBonuses(NewPlayer(id, name), [Perfectionist, Level10]).xp == 400
    ensures AddXp(NewPlayer(id, name), BonusTotal([Perfectionist, Level10])).player.level == 2
  {
    var p := NewPlayer(id, name);
    var q := AddXp(p, 200).player;
    assert q.level == 2 && q.xp == 100;
    GrantBonusesSplit(p, [Perfectionist], [Level10]);
    assert [Perfectionist] + [Level10] == [Perfectionist, Level10];
    var r := AddXp(q, 500).player;
    assert r.level == 3 && r.xp == 400;
    assert BonusTotal([Perfectionist, Level10]) == 700;
  }

  /** The classification the external model returned, with absent fields
      already replaced by their defaults (no guesses, confidence 0, a miss).
      The confidence may be fractional: one classifier passes its parsed
      number on unconverted. */
  datatype Classification = Classification(guesses: seq<string>, confidence: real, correct: bool)

  datatype Rewards = Rewards(score: int, xp: int, breakdown: Scoring.Breakdown)

  /** An awarded achievement as reported: its id with the catalogue entry. */
  datatype Awarded = Awarded(id: AchievementId, name: string, description: string, xp: int)

  function Describe(ids: seq<AchievementId>): (r: seq<Awarded>)
    ensures |r| == |ids|
    ensures forall i :: 0 <= i < |ids| ==>
      r[i] == Awarded(ids[i], Achievements.Info(ids[i]).name, Achievements.Info(ids[i]).description, Achievements.Info(ids[i]).xp)
  {
    seq(|ids|, i requires 0 <= i < |ids| =>
      Awarded(ids[i], Achievements.Info(ids[i]).name, Achievements.Info(ids[i]).description, Achievements.Info(ids[i]).xp))
  }

  function Ids(a: seq<Awarded>): (r: seq<AchievementId>)
    ensures |r| == |a| && forall i :: 0 <= i < |a| ==> r[i] == a[i].id
  {
    seq(|a|, i requires 0 <= i < |a| => a[i].id)
  }

  /** Sum of the bonuses a completion reports. */
  function ReportedXp(a: seq<Awarded>): int {
    if a == [] then 0 else a[0].xp + ReportedXp(a[1..])
  }

  /** The bonuses reported for the awarded ids add up to exactly the
      experience granted for them. */
  lemma {:induction false} DescribeBonuses(ids: seq<AchievementId>)
    ensures ReportedXp(Describe(ids)) == BonusTotal(ids)
  {
    if ids != [] {
      DescribeBonuses(ids[1..]);
      assert Describe(ids)[1..] == Describe(ids[1..]);
    }
  }

  /** The reported achievements carry their ids in award order. */
  lemma DescribeRoundTrip(ids: seq<AchievementId>)
    ensures Ids(Describe(ids)) == ids
  {
  }

  /** What a completion returns. `newLevel` is read after the achievement
      bonuses, while `levelUp` reflects only the score grant. */
  datatype Completed = Completed(
    state: State,
    session: DrawingSession,
    rewards: Rewards,
    achievements: seq<Awarded>,
    levelUp: bool,
    newLevel: Option<nat>)

  /** The player after the counters, the score grant and the brush step: the
      record the achievement rules look at. */
  function BeforeRules(p: Player, correct: bool, score: int): Player {
    UnlockBrushes(AddXp(RecordOutcome(p, correct), score).player)
  }

  /** The player-side part of a completion, for a session that already
      carries its verdict and score: counters, score grant, brush step,
      achievement rules and their bonuses, in that order. */
  datatype Progress = Progress(player: Player, levelUp: bool, awarded: seq<AchievementId>)

  function Reward(p: Player, done: DrawingSession): (r: Progress)
    requires p.Sane()
    ensures r.player.Sane()
    ensures r.player.id == p.id && r.player.name == p.name
    ensures r.player.totalDrawings == p.totalDrawings + 1
    ensures done.correct ==> r.player.correctGuesses == p.correctGuesses + 1 && r.player.streak == p.streak + 1
    ensures !done.correct ==> r.player.correctGuesses == p.correctGuesses && r.player.streak == 0
    ensures r.levelUp <==> p.xp + done.score >= p.level * 100
    ensures (if r.levelUp then p.level + 1 else p.level) <= r.player.level <= p.level + 1 + |r.awarded|
    ensures LifetimeXp(r.player) == LifetimeXp(p) + done.score + BonusTotal(r.awarded)
    ensures forall b :: b in r.player.brushes <==>
      b in p.brushes || (b != Normal && (if r.levelUp then p.level + 1 else p.level) >= Threshold(b))
    ensures r.awarded == Achievements.Due(Achievements.Rules, BeforeRules(p, done.correct, done.score), done)
    ensures r.player.achievements == p.achievements + r.awarded
  {
    var p1 := RecordOutcome(p, done.correct);
    var g := AddXp(p1, done.score);
    var p2 := UnlockBrushes(g.player);
    var check := Achievements.CheckAchievements(p2, done);
    Achievements.CheckKeepsNoDup(p2, done);
    var p3 := GrantBonuses(check.player, check.awarded);
    Progress(p3, g.leveledUp, check.awarded)
  }

  /** Writes back the completed session and its player record. */
  function Commit(s: State, sid: string, done: DrawingSession, q: Player): (t: State)
    requires Valid(s) && sid in s.sessions && done.player == s.sessions[sid].player
    requires q.Sane() && q.id == s.objs[done.player].id
    ensures Valid(t)
    ensures t.objs == s.objs[done.player := q]
    ensures t.sessions == s.sessions[sid := done]
    ensures t.players == s.players && t.keys == s.keys && t.rooms == s.rooms
  {
    s.(objs := s.objs[done.player := q], sessions := s.sessions[sid := done])
  }

  /** Completes session `sid` with a drawing, the external classification
      and the seconds spent. The steps run in a fixed order: record the
      outcome on the session, score it, update the counters, grant the score
      as xp, unlock brushes, evaluate achievements, grant their bonuses.
      Completing an already completed session is not refused. */
  function CompleteSession(s: State, sid: string, drawing: string, ai: Classification, timeSpent: real): (r: Result<Completed>)
    requires Valid(s)
    ensures r.Err? <==> sid !in s.sessions
    ensures r.Err? ==> r.error == SessionNotFound
    ensures r.Ok? ==> Valid(r.value.state)
    ensures r.Ok? ==>
      var c := r.value;
      var h := s.sessions[sid].player;
      && |c.state.objs| == |s.objs|
      && (forall i :: 0 <= i < |s.objs| && i != h ==> c.state.objs[i] == s.objs[i])
      && c.state.players == s.players && c.state.keys == s.keys && c.state.rooms == s.rooms
      && c.state.sessions == s.sessions[sid := c.session]
    ensures r.Ok? ==>
      var c := r.value;
      var before := s.sessions[sid];
      && c.session == c.state.sessions[sid]
      && c.session == before.(drawing := Some(drawing), guesses := ai.guesses, correct := ai.correct,
                            timeSpent := timeSpent, score := c.rewards.score)
      && c.rewards.breakdown == Scoring.Score(ai.correct, before.prompt.timeLimit, timeSpent, ai.confidence)
      && c.rewards.score == c.rewards.breakdown.Total()
      && c.rewards.xp == c.rewards.score
    ensures r.Ok? ==>
      var c := r.value;
      var h := s.sessions[sid].player;
      var pr := Reward(s.objs[h], c.session);
      && c.state.objs[h] == pr.player
      && c.levelUp == pr.levelUp
      && c.newLevel == (if c.levelUp then Some(pr.player.level) else None)
      && c.achievements == Describe(pr.awarded)
  {
    if sid !in s.sessions then Err(SessionNotFound)
    else
      var ses := s.sessions[sid];
      var b := Scoring.Score(ai.correct, ses.prompt.timeLimit, timeSpent, ai.confidence);
      var done := ses.(drawing := Some(drawing), guesses := ai.guesses, correct := ai.correct,
                       timeSpent := timeSpent, score := b.Total());
      var pr := Reward(s.objs[ses.player], done);
      var awarded := Describe(pr.awarded);
      var t := Commit(s, sid, done, pr.player);
      Ok(Completed(t, done, Rewards(done.score, done.score, b), awarded,
                   pr.levelUp, if pr.levelUp then Some(pr.player.level) else None))
  }

  /** Completion is not guarded against repetition: completing the same
      session twice counts two drawings and re-scores the session. */
  lemma CompleteTwiceCountsTwice(s: State, sid: string, drawing: string, ai: Classification, timeSpent: real)
    requires Valid(s) && sid in s.sessions
    ensures CompleteSession(s, sid, drawing, ai, timeSpent).Ok?
    ensures
      var first := CompleteSession(s, sid, drawing, ai, timeSpent).value;
      var second := CompleteSession(first.state, sid, drawing, ai, timeSpent);
      var h := s.sessions[sid].player;
      && second.Ok?
      && second.value.state.objs[h].totalDrawings == s.objs[h].totalDrawings + 2
  {
  }

  /** A new player's first drawing, guessed in 3 seconds and scored 225:
      the score grant lifts it to level 2, both first-draw and speed-demon are
      awarded, and their bonuses lift it to level 3 with 75 xp. NEON (level 3)
      stays locked, because brushes are unlocked before the bonuses. */
  lemma FirstDrawingExample(id: string, name: string, done: DrawingSession)
    requires done.correct && done.timeSpent == 3.0 && done.score == 225
    ensures
      var pr := Reward(NewPlayer(id, name), done);
      && pr.levelUp
      && pr.awarded == [FirstDraw, SpeedDemon]
      && pr.player.level == 3 && pr.player.xp == 75
      && pr.player.brushes == [Normal]
  {
    var p2 := BeforeRules(NewPlayer(id, name), true, 225);
    FirstDrawingCounters(id, name);
    Achievements.FirstSessionRules(p2, done);
    var q := p2.(achievements := [FirstDraw, SpeedDemon]);
    var q1 := AddXp(q, 50).player;
    assert q1.level == 2 && q1.xp == 175;
    var q2 := AddXp(q1, 100).player;
    assert q2.level == 3 && q2.xp == 75;
    assert GrantBonuses(q, [FirstDraw, SpeedDemon]) == q2;
  }

  /** The record the rules see after a new player's first drawing, guessed
      and scored 225. */
  lemma FirstDrawingCounters(id: string, name: string)
    ensures BeforeRules(NewPlayer(id, name), true, 225)
         == NewPlayer(id, name).(level := 2, xp := 125, totalDrawings := 1, correctGuesses := 1, streak := 1)
  {
    var g := AddXp(RecordOutcome(NewPlayer(id, name), true), 225);
    assert g.player.level == 2 && g.player.xp == 125;
    var p2 := UnlockBrushes(g.player);
    assert p2.brushes == [Normal] by {
      assert forall b :: b in p2.brushes ==> b == Normal;
      NoNewMeansSame([Normal], p2.brushes);
    }
  }

  // ---------------------------------------------------------------------
  // Rooms

  /** Creates room `roomId` (a fresh short id) with the creator as its only
      member; an existing room of that id is replaced. The creator is not
      looked up. */
  function CreateRoom(s: State, ownerId: string, roomId: string): (r: State)
    requires Valid(s)
    ensures Valid(r)
    ensures roomId in r.rooms && r.rooms[roomId] == [ownerId]
    ensures forall id :: id in s.rooms && id != roomId ==> id in r.rooms && r.rooms[id] == s.rooms[id]
    ensures r.rooms.Keys == s.rooms.Keys + {roomId}
    ensures r == s.(rooms := r.rooms)
  {
    s.(rooms := s.rooms[roomId := [ownerId]])
  }

  datatype Joined = Joined(state: State, ok: bool)

  /** Adds `playerId` to room `roomId` unless already a member; fails only
      for an unknown room, and then changes nothing. The player is not
      looked up. */
  function JoinRoom(s: State, roomId: string, playerId: string): (r: Joined)
    requires Valid(s)
    ensures Valid(r.state)
    ensures r.ok <==> roomId in s.rooms
    ensures !r.ok ==> r.state == s
    ensures r.ok ==>
      && r.state.rooms.Keys == s.rooms.Keys
      && playerId in r.state.rooms[roomId]
      && s.rooms[roomId] <= r.state.rooms[roomId]
      && |r.state.rooms[roomId]| <= |s.rooms[roomId]| + 1
      && (playerId in s.rooms[roomId] ==> r.state.rooms[roomId] == s.rooms[roomId])
      && (forall id :: id in s.rooms && id != roomId ==> r.state.rooms[id] == s.rooms[id])
    ensures r.state == s.(rooms := r.state.rooms)
  {
    if roomId in s.rooms then
      OrderedSet.InsertKeepsNoDup(s.rooms[roomId], playerId);
      Joined(s.(rooms := s.rooms[roomId := OrderedSet.Insert(s.rooms[roomId], playerId)]), true)
    else Joined(s, false)
  }

  /** Joining twice is joining once. */
  lemma JoinRoomIdempotent(s: State, roomId: string, playerId: string)
    requires Valid(s)
    ensures JoinRoom(JoinRoom(s, roomId, playerId).state, roomId, playerId) == JoinRoom(s, roomId, playerId)
                                                                         .(ok := roomId in s.rooms)
  {
  }

  /** Reference: the member ids that resolve to a stored player, in order. */
  function Known(s: State, ids: seq<string>): seq<string> {
    if ids == [] then []
    else (if ids[0] in s.players then [ids[0]] else []) + Known(s, ids[1..])
  }

  /** Looks up each member in order, dropping ids with no stored player. */
  function Resolve(s: State, ids: seq<string>): (r: seq<Player>)
    requires Store(s)
    ensures |r| == |Known(s, ids)| <= |ids|
    ensures forall i :: 0 <= i < |r| ==> Known(s, ids)[i] in s.players && r[i] == s.objs[s.players[Known(s, ids)[i]]]
    decreases |ids|
  {
    if ids == [] then []
    else
      var rest := Resolve(s, ids[1..]);
      assert Known(s, ids) == (if ids[0] in s.players then [ids[0]] else []) + Known(s, ids[1..]);
      if ids[0] in s.players then [s.objs[s.players[ids[0]]]] + rest else rest
  }

  /** The players of room `roomId` in joining order; an unknown room has
      none. */
  function RoomPlayers(s: State, roomId: string): (r: seq<Player>)
    requires Store(s)
    ensures roomId !in s.rooms ==> r == []
    ensures roomId in s.rooms ==>
      && |r| == |Known(s, s.rooms[roomId])|
      && forall i :: 0 <= i < |r| ==> GetPlayer(s, Known(s, s.rooms[roomId])[i]) == Some(r[i])
  {
    Resolve(s, if roomId in s.rooms then s.rooms[roomId] else [])
  }

  /** The resolved ids are exactly the members with a stored player. */
  lemma {:induction false} KnownMembers(s: State, ids: seq<string>, id: string)
    ensures id in Known(s, ids) <==> id in ids && id in s.players
  {
    if ids != [] {
      KnownMembers(s, ids[1..], id);
      assert ids == [ids[0]] + ids[1..];
    }
  }

  /** When every member is stored, nobody is dropped. */
  lemma {:induction false} KnownAll(s: State, ids: seq<string>)
    requires forall id :: id in ids ==> id in s.players
    ensures Known(s, ids) == ids
  {
    if ids != [] {
      assert ids[0] in ids;
      assert forall id :: id in ids[1..] ==> id in ids;
      KnownAll(s, ids[1..]);
      assert ids == [ids[0]] + ids[1..];
    }
  }

  // ---------------------------------------------------------------------
  // Leaderboard

  /** The players table's values in its iteration order. */
  function Roster(s: State): (r: seq<Player>)
    requires Store(s)
    ensures |r| == |s.keys|
    ensures forall i :: 0 <= i < |r| ==> s.keys[i] in s.players && r[i] == s.objs[s.players[s.keys[i]]]
  {
    seq(|s.keys|, i requires 0 <= i < |s.keys| && s.keys[i] in s.players => s.objs[s.players[s.keys[i]]])
  }

  /** In a valid state the roster is the player table itself: entry `i` is
      the player stored under the `i`-th key, and every stored player is
      listed. */
  lemma RosterIsTable(s: State)
    requires Valid(s)
    ensures forall i :: 0 <= i < |Roster(s)| ==> Roster(s)[i].id == s.keys[i]
    ensures forall k :: k in s.players ==> GetPlayer(s, k).Some? && GetPlayer(s, k).value in Roster(s)
  {
    forall k | k in s.players
      ensures GetPlayer(s, k).value in Roster(s)
    {
      var i :| 0 <= i < |s.keys| && s.keys[i] == k;
      assert Roster(s)[i] == GetPlayer(s, k).value;
    }
  }

  /** All players, best first, ties in table order. */
  function Standings(s: State): (r: seq<Player>)
    requires Store(s)
    ensures Ranking.Descending(r)
    ensures multiset(r) == multiset(Roster(s))
    ensures forall k :: Ranking.Tied(r, k) == Ranking.Tied(Roster(s), k)
  {
    Ranking.Sort(Roster(s))
  }

  /** Length of the Python slice `xs[:limit]` of a list of length `n`,
      a negative limit counting from the end. */
  function SliceLength(n: nat, limit: int): (r: nat)
    ensures r <= n
    ensures 0 <= limit ==> r == if limit < n then limit else n
    ensures limit < 0 ==> r == if n + limit > 0 then n + limit else 0
  {
    if limit >= 0 then (if limit < n then limit else n)
    else if n + limit > 0 then n + limit else 0
  }

  /** Accuracy in percent, exact (the source rounds it to one decimal). */
  function Accuracy(p: Player): (r: real)
    ensures p.totalDrawings == 0 ==> r == 0.0
    ensures p.correctGuesses <= p.totalDrawings ==> 0.0 <= r <= 100.0
    ensures p.totalDrawings > 0 ==> r * p.totalDrawings as real == p.correctGuesses as real * 100.0
  {
    if p.totalDrawings > 0 then
      var t := p.totalDrawings as real;
      var c := p.correctGuesses as real;
      assert c / t * t == c;
      assert c <= t ==> c / t <= 1.0;
      c / t * 100.0
    else 0.0
  }

  datatype Entry = Entry(rank: nat, name: string, level: nat, xp: int, totalDrawings: nat, accuracy: real, streak: nat)

  /** The top `limit` players, ranked from 1. */
  function Leaderboard(s: State, limit: int): (r: seq<Entry>)
    requires Store(s)
    ensures |r| == SliceLength(|s.keys|, limit)
    ensures forall i :: 0 <= i < |r| ==> r[i].rank == i + 1
    ensures forall i :: 0 <= i < |r| ==>
      var p := Standings(s)[i];
      && r[i].name == p.name && r[i].level == p.level && r[i].xp == p.xp
      && r[i].totalDrawings == p.totalDrawings && r[i].streak == p.streak
      && r[i].accuracy == Accuracy(p)
    ensures forall i, j :: 0 <= i < j < |r| ==> r[i].level >= r[j].level
    ensures forall i :: 0 <= i < |r| && r[i].totalDrawings == 0 ==> r[i].accuracy == 0.0
  {
    var ranked := Standings(s);
    assert |ranked| == |s.keys| by {
      assert |multiset(ranked)| == |multiset(Roster(s))|;
    }
    var n := SliceLength(|ranked|, limit);
    seq(n, i requires 0 <= i < n =>
      Entry(i + 1, ranked[i].name, ranked[i].level, ranked[i].xp, ranked[i].totalDrawings,
            Accuracy(ranked[i]), ranked[i].streak))
  }

  /** In a valid state every reported accuracy lies in [0, 100] and no
      player is listed twice. */
  lemma LeaderboardSound(s: State, limit: int)
    requires Valid(s)
    ensures forall i :: 0 <= i < |Leaderboard(s, limit)| ==> 0.0 <= Leaderboard(s, limit)[i].accuracy <= 100.0
    ensures OrderedSet.NoDup(Standings(s))
  {
    var roster := Roster(s);
    forall i, j | 0 <= i < j < |roster|
      ensures roster[i] != roster[j]
    {
      assert roster[i].id == s.keys[i] && roster[j].id == s.keys[j];
    }
    forall p | p in Standings(s)
      ensures p.correctGuesses <= p.totalDrawings
    {
      assert p in multiset(roster);
      var i :| 0 <= i < |roster| && roster[i] == p;
    }
    MultisetNoDup(roster, Standings(s));
  }

  /** A permutation of a duplicate-free list is duplicate-free. */
  lemma MultisetNoDup(a: seq<Player>, b: seq<Player>)
    requires OrderedSet.NoDup(a) && multiset(a) == multiset(b)
    ensures OrderedSet.NoDup(b)
  {
    forall i, j | 0 <= i < j < |b|
      ensures b[i] != b[j]
    {
      if b[i] == b[j] {
        OrderedSet.NoDupCount(a, b[i]);
        OrderedSet.CountIsMultiplicity(a, b[i]);
        Twice(b, i, j);
      }
    }
  }

  lemma Twice(b: seq<Player>, i: nat, j: nat)
    requires i < j < |b| && b[i] == b[j]
    ensures multiset(b)[b[i]] >= 2
  {
    assert b == b[..i] + [b[i]] + b[i+1..j] + [b[j]] + b[j+1..];
  }

  // ---------------------------------------------------------------------
  // The auto-create branch as written

  /** Session start's auto-create branch as the source writes it: the
      player is created under the fresh id `uuid`, its id is then changed to
      `key`, and the same object is stored again under `key`, so one record
      is reachable from two keys and the uuid entry names the wrong id. */
  function ProvisionAsWritten(s: State, key: string, uuid: string): (r: State)
    requires Valid(s) && key !in s.players && uuid !in s.players && uuid != key
    ensures Store(r)
    ensures r.keys == s.keys + [uuid, key]
    ensures r.players[uuid] == r.players[key]
    ensures GetPlayer(r, key) == Some(NewPlayer(key, "Player_" + key))
    ensures GetPlayer(r, uuid) == GetPlayer(r, key)
    ensures !Valid(r)
  {
    var c := CreatePlayer(s, "Player_" + key, uuid);
    var h := |s.objs|;
    var s1 := c.state.(objs := c.state.objs[h := c.player.(id := key)]);
    Put(s1, key, h)
  }

  /** The roster, and with it the leaderboard, lists the auto-created
      player twice: from an empty manager, a leaderboard of any limit of two
      or more has two entries for the one player. */
  lemma AutoCreateListsTwice(key: string, uuid: string, limit: int)
    requires uuid != key && limit >= 2
    ensures Valid(Empty)
    ensures
      var s := ProvisionAsWritten(Empty, key, uuid);
      var board := Leaderboard(s, limit);
      && |Roster(s)| == 2 && Roster(s)[0] == Roster(s)[1]
      && |board| == 2 && board[0].name == board[1].name == "Player_" + key
  {
    var s := ProvisionAsWritten(Empty, key, uuid);
    var p := NewPlayer(key, "Player_" + key);
    var roster := Roster(s);
    assert roster[0] == p && roster[1] == p;
    var ranked := Standings(s);
    assert |ranked| == 2 by {
      assert |multiset(ranked)| == |multiset(roster)|;
    }
    assert roster == [p, p];
    forall i | 0 <= i < 2
      ensures ranked[i] == p
    {
      assert ranked[i] in multiset(roster);
    }
  }

  /** The corrected branch adds exactly one roster entry. */
  lemma ProvisionListsOnce(s: State, key: string)
    requires Valid(s) && key !in s.players
    ensures Roster(Provision(s, key)) == Roster(s) + [NewPlayer(key, "Player_" + key)]
  {
    var r := Provision(s, key);
    forall i | 0 <= i < |s.keys|
      ensures Roster(r)[i] == Roster(s)[i]
    {
      assert GetPlayer(r, s.keys[i]) == GetPlayer(s, s.keys[i]);
    }
  }

  /** In a valid state no two roster entries share an id, so every player
      appears on the leaderboard at most once. */
  lemma RosterIdsDistinct(s: State)
    requires Valid(s)
    ensures forall i, j :: 0 <= i < j < |Roster(s)| ==> Roster(s)[i].id != Roster(s)[j].id
  {
  }
}

=== FILE: models.dfy ===
/** The domain records of the game: difficulty tiers, brushes, prompts,
    players and drawing sessions, with the three mutators a player offers
    (gaining experience, unlocking a brush, recording an achievement).
    Every mutator is a pure function from the old record to the new one. */
module Models {
  import OrderedSet

  datatype Option<T> = None | Some(value: T)

  datatype Difficulty = Easy | Medium | Hard

  datatype BrushType = Normal | Neon | Spray | Marker | Sparkle

  /** The six ids of the achievement catalogue, the only values the game ever
      records in a player's achievement list. */
  datatype AchievementId = FirstDraw | SpeedDemon | Perfectionist | NightOwl | Level10 | AbstractMaster
  {
    /** The id as it appears in the catalogue and in the game's replies. */
    function Key(): string {
      match this
      case FirstDraw => "first_draw"
      case SpeedDemon => "speed_demon"
      case Perfectionist => "perfectionist"
      case NightOwl => "night_owl"
      case Level10 => "level_10"
      case AbstractMaster => "abstract_master"
    }
  }

  /** A drawing challenge; `timeLimit` is in seconds. */
  datatype Prompt = Prompt(text: string, difficulty: Difficulty, timeLimit: int)

  /** A player. The creation and last-played timestamps are not modelled. */
  datatype Player = Player(
    id: string,
    name: string,
    level: nat,
    xp: int,
    streak: nat,
    totalDrawings: nat,
    correctGuesses: nat,
    brushes: seq<BrushType>,
    achievements: seq<AchievementId>)
  {
    /** What every reachable player satisfies: the counters only move the way
        a completion moves them and both lists are duplicate-free. */
    predicate Sane() {
      && level >= 1
      && correctGuesses <= totalDrawings
      && streak <= correctGuesses
      && Normal in brushes
      && OrderedSet.NoDup(brushes)
      && OrderedSet.NoDup(achievements)
    }

    /** No pending level-up: the experience is below the next threshold. */
    predicate Settled() {
      0 <= xp < level * 100
    }
  }

  /** One attempt at a prompt. `player` is the handle of the player record in
      the manager's store (the source keeps an object reference there).
      The fields after `prompt` stay at their defaults until completion. */
  datatype DrawingSession = DrawingSession(
    id: string,
    player: nat,
    prompt: Prompt,
    drawing: Option<string>,
    guesses: seq<string>,
    correct: bool,
    timeSpent: real,
    score: int)

  /** A freshly started session: nothing recorded yet. */
  function OpenSession(id: string, player: nat, prompt: Prompt): (r: DrawingSession)
    ensures r.id == id && r.player == player && r.prompt == prompt
    ensures r.drawing == None && r.guesses == [] && !r.correct
    ensures r.timeSpent == 0.0 && r.score == 0
  {
    DrawingSession(id, player, prompt, None, [], false, 0.0, 0)
  }

  /** A player with the declared defaults. */
  function NewPlayer(id: string, name: string): (r: Player)
    ensures r.id == id && r.name == name
    ensures r.level == 1 && r.xp == 0 && r.streak == 0
    ensures r.totalDrawings == 0 && r.correctGuesses == 0
    ensures r.brushes == [Normal] && r.achievements == []
    ensures r.Sane() && r.Settled()
  {
    Player(id, name, 1, 0, 0, 0, 0, [Normal], [])
  }

  /** Experience needed to climb from level 1 to `level`: the sum of the
      thresholds 100, 200, ..., (level - 1) * 100. */
  function XpToReach(level: nat): nat {
    if level <= 1 then 0 else XpToReach(level - 1) + (level - 1) * 100
  }

  /** Experience earned over the player's lifetime, read off level and xp. */
  function LifetimeXp(p: Player): int {
    XpToReach(p.level) + p.xp
  }

  /** Result of a grant: the new player and whether the level went up. */
  datatype Grant = Grant(player: Player, leveledUp: bool)

  /** Adds `points` to xp and checks the threshold `level * 100` exactly once:
      when reached, the level rises by one and the threshold is paid out of
      xp. A single large grant is not cascaded into several level-ups. */
  function AddXp(p: Player, points: int): (r: Grant)
    ensures r.leveledUp <==> p.xp + points >= p.level * 100
    ensures r.player.level == if r.leveledUp then p.level + 1 else p.level
    ensures LifetimeXp(r.player) == LifetimeXp(p) + points
    ensures r.player == p.(level := r.player.level, xp := r.player.xp)
  {
    var xp := p.xp + points;
    var needed := p.level * 100;
    if xp >= needed then Grant(p.(level := p.level + 1, xp := xp - needed), true)
    else Grant(p.(xp := xp), false)
  }

  /** Records a brush unless the player already has it. */
  function UnlockBrush(p: Player, b: BrushType): (r: Player)
    ensures b in r.brushes
    ensures p.brushes <= r.brushes && |r.brushes| <= |p.brushes| + 1
    ensures forall i :: |p.brushes| <= i < |r.brushes| ==> r.brushes[i] == b
    ensures OrderedSet.NoDup(p.brushes) ==> OrderedSet.NoDup(r.brushes)
    ensures r == p.(brushes := r.brushes)
  {
    p.(brushes := OrderedSet.Insert(p.brushes, b))
  }

  /** Records an achievement id unless the player already has it. */
  function AddAchievement(p: Player, id: AchievementId): (r: Player)
    ensures id in r.achievements
    ensures p.achievements <= r.achievements && |r.achievements| <= |p.achievements| + 1
    ensures forall i :: |p.achievements| <= i < |r.achievements| ==> r.achievements[i] == id
    ensures id !in p.achievements ==> r.achievements == p.achievements + [id]
    ensures OrderedSet.NoDup(p.achievements) ==> OrderedSet.NoDup(r.achievements)
    ensures r == p.(achievements := r.achievements)
  {
    p.(achievements := OrderedSet.Insert(p.achievements, id))
  }

  /** Distinct ids have distinct keys. */
  lemma KeysDistinct(a: AchievementId, b: AchievementId)
    ensures a != b ==> a.Key() != b.Key()
  {
  }

  /** A zero grant to a player below its threshold changes nothing, whatever
      the sign of its xp. */
  lemma AddXpZero(p: Player)
    requires p.xp < p.level * 100
    ensures AddXp(p, 0) == Grant(p, false)
  {
  }

  /** Granting exactly the current threshold levels a settled player up once
      and leaves it settled at the new level with the same xp. */
  lemma AddXpThreshold(p: Player)
    requires p.Settled()
    ensures AddXp(p, p.level * 100).leveledUp
    ensures AddXp(p, p.level * 100).player.level == p.level + 1
    ensures AddXp(p, p.level * 100).player.xp == p.xp
    ensures AddXp(p, p.level * 100).player.Settled()
  {
  }

  /** A non-negative grant keeps a player settled exactly when it stays below
      the sum of the current and the next threshold; beyond that the single
      check leaves a level-up pending. */
  lemma AddXpStaysSettled(p: Player, points: int)
    requires p.Settled() && points >= 0
    ensures AddXp(p, points).player.Settled() <==> p.xp + points < p.level * 100 + (p.level + 1) * 100
  {
  }

  /** A new player granted 300 xp reaches level 2 with 200 xp: the check runs
      once, so the second threshold (200) is met but not taken. */
  lemma AddXpDoesNotCascade(id: string, name: string)
    ensures AddXp(NewPlayer(id, name), 300).leveledUp
    ensures AddXp(NewPlayer(id, name), 300).player.level == 2
    ensures AddXp(NewPlayer(id, name), 300).player.xp == 200
    ensures !AddXp(NewPlayer(id, name), 300).player.Settled()
  {
    var g := AddXp(NewPlayer(id, name), 300);
    assert g.player.xp == 200;
  }

  /** A grant never raises the level by more than one. */
  lemma AddXpAtMostOneLevel(p: Player, points: int)
    ensures p.level <= AddXp(p, points).player.level <= p.level + 1
  {
  }

  /** Unlocking is idempotent and, on a duplicate-free list, leaves the brush
      present exactly once while every other brush keeps its count. */
  lemma UnlockBrushIdempotent(p: Player, b: BrushType)
    requires OrderedSet.NoDup(p.brushes)
    ensures UnlockBrush(UnlockBrush(p, b), b) == UnlockBrush(p, b)
    ensures OrderedSet.Count(UnlockBrush(p, b).brushes, b) == 1
    ensures forall c :: c != b ==> OrderedSet.Count(UnlockBrush(p, b).brushes, c) == OrderedSet.Count(p.brushes, c)
  {
    OrderedSet.InsertExactlyOnce(p.brushes, b);
  }

  /** Recording an achievement is idempotent and never removes or duplicates
      an id. */
  lemma AddAchievementIdempotent(p: Player, id: AchievementId)
    requires OrderedSet.NoDup(p.achievements)
    ensures AddAchievement(AddAchievement(p, id), id) == AddAchievement(p, id)
    ensures OrderedSet.Count(AddAchievement(p, id).achievements, id) == 1
    ensures forall a :: a in p.achievements ==> a in AddAchievement(p, id).achievements
  {
    OrderedSet.InsertExactlyOnce(p.achievements, id);
  }
}

=== FILE: ordered_set.dfy ===
/** Lists used as insertion-ordered sets: the player's brushes, the player's
    achievements and the member list of a room are all Python lists that are
    only ever grown by "append if not already present". */
module OrderedSet {

  /** No element occurs twice. */
  predicate NoDup<T(==)>(s: seq<T>) {
    forall i, j :: 0 <= i < j < |s| ==> s[i] != s[j]
  }

  /** Number of occurrences of `x` in `s`. */
  function Count<T(==)>(s: seq<T>, x: T): nat {
    if s == [] then 0 else (if s[0] == x then 1 else 0) + Count(s[1..], x)
  }

  /** Append `x` unless it is already present; the order of existing entries
      is never disturbed. */
  function Insert<T(==)>(s: seq<T>, x: T): (r: seq<T>)
    ensures s <= r && |r| <= |s| + 1
    ensures x in r
    ensures forall i :: |s| <= i < |r| ==> r[i] == x
    ensures x in s ==> r == s
    ensures x !in s ==> |r| == |s| + 1
  {
    if x in s then s else s + [x]
  }

  lemma {:induction false} CountAppend<T>(s: seq<T>, t: seq<T>, x: T)
    ensures Count(s + t, x) == Count(s, x) + Count(t, x)
  {
    if s == [] {
      assert s + t == t;
    } else {
      assert (s + t)[1..] == s[1..] + t;
      CountAppend(s[1..], t, x);
    }
  }

  lemma {:induction false} CountZero<T>(s: seq<T>, x: T)
    ensures x !in s <==> Count(s, x) == 0
  {
    if s != [] {
      assert s == [s[0]] + s[1..];
      CountZero(s[1..], x);
    }
  }

  lemma {:induction false} NoDupCount<T>(s: seq<T>, x: T)
    requires NoDup(s)
    ensures Count(s, x) <= 1
  {
    if s != [] {
      assert NoDup(s[1..]);
      NoDupCount(s[1..], x);
      if s[0] == x {
        assert x !in s[1..];
        CountZero(s[1..], x);
      }
    }
  }

  /** `Count` is the multiplicity of `x` in the multiset of `s`. */
  lemma {:induction false} CountIsMultiplicity<T>(s: seq<T>, x: T)
    ensures Count(s, x) == multiset(s)[x]
  {
    if s != [] {
      assert s == [s[0]] + s[1..];
      CountIsMultiplicity(s[1..], x);
    }
  }

  /** Inserting twice is inserting once. */
  lemma InsertIdempotent<T>(s: seq<T>, x: T)
    ensures Insert(Insert(s, x), x) == Insert(s, x)
  {
  }

  /** Insertion keeps a duplicate-free list duplicate-free. */
  lemma InsertKeepsNoDup<T>(s: seq<T>, x: T)
    requires NoDup(s)
    ensures NoDup(Insert(s, x))
  {
  }

  /** After an insertion into a duplicate-free list the element is present
      exactly once, and every other element keeps its number of occurrences. */
  lemma {:induction false} InsertExactlyOnce<T>(s: seq<T>, x: T)
    requires NoDup(s)
    ensures Count(Insert(s, x), x) == 1
    ensures forall y :: y != x ==> Count(Insert(s, x), y) == Count(s, y)
  {
    InsertKeepsNoDup(s, x);
    NoDupCount(Insert(s, x), x);
    CountZero(Insert(s, x), x);
    forall y | y != x
      ensures Count(Insert(s, x), y) == Count(s, y)
    {
      if x !in s {
        CountAppend(s, [x], y);
        assert [x][1..] == [];
      }
    }
  }
}

=== FILE: prompts.dfy ===
/** The prompt generator: fixed word pools per difficulty, a surprise pool,
    and the time limit that goes with each tier. The two random draws of the
    source (a uniform roll in [0, 1) and a uniform choice from a pool) are
    parameters: `roll` is the roll and `pick` selects the pool entry at
    `pick % |pool|`. */
module Prompts {
  import opened Models
  import OrderedSet

  const EasyPool: seq<string> := [
    "cachorro", "gato", "casa", "árvore", "sol", "lua", "estrela",
    "coração", "flor", "carro", "bicicleta", "pássaro", "peixe"]

  const MediumPool: seq<string> := [
    "dragão", "robô", "castelo", "foguete", "dinossauro", "sereia",
    "unicórnio", "pirata", "ninja", "bruxa", "vampiro", "zumbi"]

  const HardPool: seq<string> := [
    "felicidade", "liberdade", "solidão", "caos", "harmonia",
    "tempo", "memória", "sonho", "impossível", "infinito"]

  const SurprisePool: seq<string> := [
    "um gato astronauta", "pizza voadora", "robô jardineiro",
    "dragão dormindo", "árvore de doces", "nuvem com pernas",
    "peixe-guitarra", "cachorro-unicórnio", "casa flutuante"]

  /** The roll must exceed this for a surprise prompt (a 30% chance). */
  const SurpriseCutoff: real := 0.7

  function Pool(d: Difficulty): seq<string> {
    match d
    case Easy => EasyPool
    case Medium => MediumPool
    case Hard => HardPool
  }

  /** The uniform choice of the source, driven by the caller's `pick`. */
  function Choose(pool: seq<string>, pick: nat): (r: string)
    requires |pool| > 0
    ensures r in pool
  {
    pool[pick % |pool|]
  }

  /** Whether a surprise prompt is produced. */
  predicate SurpriseFires(surprise: bool, roll: real) {
    surprise && roll > SurpriseCutoff
  }

  /** A surprise prompt (when asked for and the roll exceeds 0.7) is always
      MEDIUM with 30 seconds, whatever was requested; otherwise the prompt
      comes from the requested tier's pool with 20, 25 or 30 seconds. */
  function Generate(difficulty: Difficulty, surprise: bool, roll: real, pick: nat): (r: Prompt)
    ensures SurpriseFires(surprise, roll) ==>
      r.text in SurprisePool && r.difficulty == Medium && r.timeLimit == 30
    ensures !SurpriseFires(surprise, roll) ==>
      r.text in Pool(difficulty) && r.difficulty == difficulty
    ensures !SurpriseFires(surprise, roll) && difficulty == Easy ==> r.timeLimit == 20
    ensures !SurpriseFires(surprise, roll) && difficulty == Medium ==> r.timeLimit == 25
    ensures !SurpriseFires(surprise, roll) && difficulty == Hard ==> r.timeLimit == 30
  {
    if SurpriseFires(surprise, roll) then
      Prompt(Choose(SurprisePool, pick), Medium, 30)
    else
      match difficulty
      case Easy => Prompt(Choose(EasyPool, pick), Easy, 20)
      case Medium => Prompt(Choose(MediumPool, pick), Medium, 25)
      case Hard => Prompt(Choose(HardPool, pick), Hard, 30)
  }

  /** The pools have the sizes the game declares and share no entry across
      the three tiers. */
  lemma PoolShapes()
    ensures |EasyPool| == 13 && |MediumPool| == 12 && |HardPool| == 10 && |SurprisePool| == 9
    ensures forall d: Difficulty :: OrderedSet.NoDup(Pool(d))
    ensures forall i, j :: 0 <= i < |EasyPool| && 0 <= j < |MediumPool| ==> EasyPool[i] != MediumPool[j]
    ensures forall i, j :: 0 <= i < |EasyPool| && 0 <= j < |HardPool| ==> EasyPool[i] != HardPool[j]
    ensures forall i, j :: 0 <= i < |MediumPool| && 0 <= j < |HardPool| ==> MediumPool[i] != HardPool[j]
  {
  }

  /** Every entry of the requested pool can be drawn, and so can every
      surprise entry: the parameterised choice loses nothing. */
  lemma GenerateReachesEveryEntry(difficulty: Difficulty, roll: real, i: nat)
    ensures i < |Pool(difficulty)| ==> Generate(difficulty, false, roll, i).text == Pool(difficulty)[i]
    ensures i < |SurprisePool| && roll > SurpriseCutoff ==> Generate(difficulty, true, roll, i).text == SurprisePool[i]
  {
    var n := |Pool(difficulty)|;
    if i < n {
      assert i % n == i;
    }
    if i < |SurprisePool| {
      assert i % |SurprisePool| == i;
    }
  }

  /** A time limit is always one of 20, 25 and 30 seconds, and a HARD prompt
      never comes out of a non-HARD request. */
  lemma GenerateLimits(difficulty: Difficulty, surprise: bool, roll: real, pick: nat)
    ensures Generate(difficulty, surprise, roll, pick).timeLimit in {20, 25, 30}
    ensures difficulty != Hard ==> Generate(difficulty, surprise, roll, pick).difficulty != Hard
  {
  }
}

=== FILE: ranking.dfy ===
/** Leaderboard ordering: Python's `sorted(..., key=(level, correct_guesses),
    reverse=True)`, a stable sort in descending key order (players with equal
    keys keep their original relative order), written as an insertion sort. */
module Ranking {
  import opened Models

  /** The sort key is compared lexicographically: level first, then
      correct guesses. */
  predicate Ahead(a: Player, b: Player) {
    a.level > b.level || (a.level == b.level && a.correctGuesses > b.correctGuesses)
  }

  predicate SameKey(a: Player, b: Player) {
    a.level == b.level && a.correctGuesses == b.correctGuesses
  }

  /** No later entry is ahead of an earlier one. */
  predicate Descending(ps: seq<Player>) {
    forall i, j :: 0 <= i < j < |ps| ==> !Ahead(ps[j], ps[i])
  }

  /** The entries of `ps` that share `k`'s key, in order. Stability means
      that this subsequence is the same before and after sorting. */
  function Tied(ps: seq<Player>, k: Player): seq<Player> {
    if ps == [] then []
    else (if SameKey(ps[0], k) then [ps[0]] else []) + Tied(ps[1..], k)
  }

  lemma {:induction false} TiedAppend(a: seq<Player>, b: seq<Player>, k: Player)
    ensures Tied(a + b, k) == Tied(a, k) + Tied(b, k)
  {
    if a == [] {
      assert a + b == b;
    } else {
      assert (a + b)[1..] == a[1..] + b;
      TiedAppend(a[1..], b, k);
    }
  }

  /** Places `x` after every entry that is not behind it. */
  function Place(x: Player, ps: seq<Player>): (r: seq<Player>)
    requires Descending(ps)
    ensures Descending(r)
    ensures multiset(r) == multiset(ps) + multiset{x}
    ensures forall k :: Tied(r, k) == Tied(ps, k) + (if SameKey(x, k) then [x] else [])
    decreases |ps|
  {
    if ps == [] then
      PlaceAlone(x);
      [x]
    else if Ahead(x, ps[0]) then
      PlaceFront(x, ps);
      [x] + ps
    else
      var rest := Place(x, ps[1..]);
      PlaceBehind(x, ps, rest);
      [ps[0]] + rest
  }

  lemma PlaceAlone(x: Player)
    ensures Descending([x])
    ensures forall k :: Tied([x], k) == (if SameKey(x, k) then [x] else [])
  {
    forall k ensures Tied([x], k) == (if SameKey(x, k) then [x] else []) {
      assert [x][1..] == [];
    }
  }

  lemma PlaceFront(x: Player, ps: seq<Player>)
    requires Descending(ps) && ps != [] && Ahead(x, ps[0])
    ensures Descending([x] + ps)
    ensures forall k :: Tied([x] + ps, k) == Tied(ps, k) + (if SameKey(x, k) then [x] else [])
  {
    var r := [x] + ps;
    assert r[1..] == ps;
    forall k ensures Tied(r, k) == Tied(ps, k) + (if SameKey(x, k) then [x] else []) {
      if SameKey(x, k) {
        NoneTied(ps, x, k);
      }
    }
  }

  lemma PlaceBehind(x: Player, ps: seq<Player>, rest: seq<Player>)
    requires Descending(ps) && ps != [] && !Ahead(x, ps[0])
    requires Descending(rest)
    requires multiset(rest) == multiset(ps[1..]) + multiset{x}
    requires forall k :: Tied(rest, k) == Tied(ps[1..], k) + (if SameKey(x, k) then [x] else [])
    ensures Descending([ps[0]] + rest)
    ensures multiset([ps[0]] + rest) == multiset(ps) + multiset{x}
    ensures forall k :: Tied([ps[0]] + rest, k) == Tied(ps, k) + (if SameKey(x, k) then [x] else [])
  {
    var r := [ps[0]] + rest;
    assert r[1..] == rest;
    assert ps == [ps[0]] + ps[1..];
    BehindHead(x, ps, rest);
    forall k ensures Tied(r, k) == Tied(ps, k) + (if SameKey(x, k) then [x] else []) {
      TiedBehind(x, ps, rest, k);
    }
  }

  /** One tie class of `PlaceBehind`: the head contributes the same prefix
      before and after. */
  lemma TiedBehind(x: Player, ps: seq<Player>, rest: seq<Player>, k: Player)
    requires ps != []
    requires Tied(rest, k) == Tied(ps[1..], k) + (if SameKey(x, k) then [x] else [])
    ensures Tied([ps[0]] + rest, k) == Tied(ps, k) + (if SameKey(x, k) then [x] else [])
  {
    var h := if SameKey(ps[0], k) then [ps[0]] else [];
    assert ([ps[0]] + rest)[1..] == rest;
    assert Tied([ps[0]] + rest, k) == h + Tied(rest, k);
    assert Tied(ps, k) == h + Tied(ps[1..], k);
  }

  /** Nothing placed behind the head of a descending list is ahead of it. */
  lemma BehindHead(x: Player, ps: seq<Player>, rest: seq<Player>)
    requires Descending(ps) && ps != [] && !Ahead(x, ps[0])
    requires Descending(rest)
    requires multiset(rest) == multiset(ps[1..]) + multiset{x}
    ensures Descending([ps[0]] + rest)
  {
    var r := [ps[0]] + rest;
    forall j | 0 <= j < |rest|
      ensures !Ahead(rest[j], ps[0])
    {
      assert rest[j] in multiset(rest);
      if rest[j] != x {
        assert rest[j] in ps[1..];
        var m :| 0 <= m < |ps[1..]| && ps[1..][m] == rest[j];
        assert ps[m + 1] == rest[j];
      }
    }
    forall i, j | 0 <= i < j < |r|
      ensures !Ahead(r[j], r[i])
    {
      assert r[j] == rest[j - 1];
      if i > 0 {
        assert r[i] == rest[i - 1];
      }
    }
  }

  /** When `x` is ahead of the head of a descending list, no entry of the
      list shares its key. */
  lemma {:induction false} NoneTied(ps: seq<Player>, x: Player, k: Player)
    requires Descending(ps) && ps != [] && Ahead(x, ps[0]) && SameKey(x, k)
    ensures Tied(ps, k) == []
  {
    if |ps| > 1 {
      assert !Ahead(ps[1], ps[0]);
      NoneTied(ps[1..], x, k);
    }
  }

  /** The stable descending sort. */
  function Sort(ps: seq<Player>): (r: seq<Player>)
    ensures Descending(r)
    ensures multiset(r) == multiset(ps)
    ensures forall k :: Tied(r, k) == Tied(ps, k)
    decreases |ps|
  {
    if ps == [] then []
    else
      var init := ps[..|ps| - 1];
      var last := ps[|ps| - 1];
      assert ps == init + [last];
      assert forall k :: Tied(ps, k) == Tied(init, k) + (if SameKey(last, k) then [last] else []) by {
        forall k ensures Tied(ps, k) == Tied(init, k) + (if SameKey(last, k) then [last] else []) {
          TiedAppend(init, [last], k);
          assert [last][1..] == [];
        }
      }
      Place(last, Sort(init))
  }

  /** Sorting an already ordered list changes nothing: the stable sort is
      determined by its three properties. */
  lemma {:induction false} SortIdempotent(ps: seq<Player>)
    ensures Sort(Sort(ps)) == Sort(ps)
  {
    Unique(Sort(Sort(ps)), Sort(ps));
  }

  /** Two descending lists with the same tie classes are equal. */
  lemma {:induction false} Unique(a: seq<Player>, b: seq<Player>)
    requires Descending(a) && Descending(b)
    requires forall k :: Tied(a, k) == Tied(b, k)
    ensures a == b
    decreases |a| + |b|
  {
    if a != [] && b != [] {
      TiedSelf(a);
      TiedSelf(b);
      assert Tied(b, a[0]) != [];
      assert Tied(a, b[0]) != [];
      KeyOrder(b, a[0]);
      KeyOrder(a, b[0]);
      assert SameKey(a[0], b[0]);
      HeadOfTied(b, a[0]);
      assert a[0] == Tied(a, a[0])[0] == Tied(b, a[0])[0] == b[0];
      forall k ensures Tied(a[1..], k) == Tied(b[1..], k) {
        var h := if SameKey(a[0], k) then [a[0]] else [];
        assert Tied(a, k) == h + Tied(a[1..], k);
        assert Tied(b, k) == h + Tied(b[1..], k);
        assert Tied(a[1..], k) == Tied(a, k)[|h|..];
      }
      assert Descending(a[1..]) && Descending(b[1..]);
      Unique(a[1..], b[1..]);
      assert a == [a[0]] + a[1..];
      assert b == [b[0]] + b[1..];
    } else if a != [] {
      TiedSelf(a);
    } else if b != [] {
      TiedSelf(b);
    }
  }

  /** A list's head is in its own tie class. */
  lemma TiedSelf(ps: seq<Player>)
    requires ps != []
    ensures Tied(ps, ps[0]) != [] && Tied(ps, ps[0])[0] == ps[0]
  {
  }

  /** A non-empty tie class of a descending list starts at the list's head
      exactly when the head has that key. */
  lemma {:induction false} HeadOfTied(ps: seq<Player>, k: Player)
    requires Descending(ps) && ps != [] && SameKey(ps[0], k)
    ensures Tied(ps, k) != [] && Tied(ps, k)[0] == ps[0]
  {
  }

  /** Every entry of a tie class carries its key, and in a descending list
      nothing ahead of the head exists. */
  lemma {:induction false} KeyOrder(ps: seq<Player>, k: Player)
    requires Descending(ps) && ps != []
    ensures Tied(ps, k) != [] ==> !Ahead(k, ps[0])
  {
    if Tied(ps, k) != [] && !SameKey(ps[0], k) {
      assert Tied(ps, k) == Tied(ps[1..], k);
      var i := TiedWitness(ps[1..], k);
      assert !Ahead(ps[1..][i], ps[0]);
    }
  }

  /** A non-empty tie class has a witness position. */
  lemma {:induction false} TiedWitness(ps: seq<Player>, k: Player) returns (i: nat)
    requires Tied(ps, k) != []
    ensures i < |ps| && SameKey(ps[i], k)
  {
    if SameKey(ps[0], k) {
      i := 0;
    } else {
      var j := TiedWitness(ps[1..], k);
      i := j + 1;
    }
  }
}

=== FILE: scoring.dfy ===
/** The score of a completed session: a base for the verdict, a bonus for
    the seconds left on the clock and a bonus for the model's confidence.
    Both bonuses go through Python's `int()`, which truncates toward zero;
    Dafny's own `/` on integers floors instead, so truncation is spelled out. */
module Scoring {

  /** Truncation toward zero of a real, as Python's `int()` does on a float. */
  function Trunc(x: real): (n: int)
    ensures x >= 0.0 ==> n as real <= x < n as real + 1.0
    ensures x < 0.0 ==> n as real - 1.0 < x <= n as real
  {
    if x >= 0.0 then x.Floor else -((-x).Floor)
  }

  /** The three parts of a session's score. */
  datatype Breakdown = Breakdown(base: int, timeBonus: int, confidenceBonus: int) {
    function Total(): int {
      base + timeBonus + confidenceBonus
    }
  }

  const CorrectBase: int := 100
  const MissBase: int := 20
  /** Points per second saved against the time limit. */
  const PointsPerSecond: real := 5.0

  /** The breakdown for a verdict, a prompt's time limit, the seconds spent
      and the model's confidence. */
  function Score(correct: bool, timeLimit: int, timeSpent: real, confidence: real): (r: Breakdown)
    ensures r.base == if correct then 100 else 20
    ensures r.timeBonus >= 0
    ensures timeSpent >= timeLimit as real ==> r.timeBonus == 0
    ensures timeSpent < timeLimit as real ==>
      r.timeBonus as real <= (timeLimit as real - timeSpent) * 5.0 < r.timeBonus as real + 1.0
    ensures confidence >= 0.0 ==>
      0 <= r.confidenceBonus && r.confidenceBonus as real <= confidence / 2.0 < r.confidenceBonus as real + 1.0
    ensures confidence < 0.0 ==>
      r.confidenceBonus <= 0 && r.confidenceBonus as real - 1.0 < confidence / 2.0 <= r.confidenceBonus as real
  {
    var base := if correct then CorrectBase else MissBase;
    var timeBonus := Trunc((timeLimit as real - timeSpent) * PointsPerSecond);
    var confidenceBonus := Trunc(confidence / 2.0);
    Breakdown(base, if timeBonus > 0 then timeBonus else 0, confidenceBonus)
  }

  /** For a whole-number confidence `c` the bonus is Dafny's floor division
      `c / 2` when `c` is non-negative, and one more than it when `c` is
      negative and odd, where truncation and flooring part ways. */
  lemma ConfidenceBonusDivision(correct: bool, timeLimit: int, timeSpent: real, c: int)
    ensures c >= 0 ==> Score(correct, timeLimit, timeSpent, c as real).confidenceBonus == c / 2
    ensures c < 0 && c % 2 == 1 ==>
      Score(correct, timeLimit, timeSpent, c as real).confidenceBonus == c / 2 + 1
  {
    var b := Score(correct, timeLimit, timeSpent, c as real).confidenceBonus;
    if c >= 0 {
      assert b == c / 2;
    }
  }

  /** A fractional confidence is halved and then truncated: 87.5 gives 43,
      and -87.5 gives -43. */
  lemma FractionalConfidence()
    ensures Score(true, 20, 3.0, 87.5).confidenceBonus == 43
    ensures Score(true, 20, 3.0, -87.5).confidenceBonus == -43
  {
  }

  /** A correct drawing always scores at least 100, and a non-negative
      confidence never lowers a score below its base. */
  lemma ScoreLowerBound(correct: bool, timeLimit: int, timeSpent: real, confidence: real)
    requires confidence >= 0.0
    ensures Score(correct, timeLimit, timeSpent, confidence).Total() >= Score(correct, timeLimit, timeSpent, confidence).base
    ensures correct ==> Score(correct, timeLimit, timeSpent, confidence).Total() >= 100
  {
  }

  /** A correct drawing of a 20-second prompt finished in 3 seconds with
      confidence 80 scores 100 + 85 + 40 = 225. */
  lemma ScoreExample()
    ensures Score(true, 20, 3.0, 80.0) == Breakdown(100, 85, 40)
    ensures Score(true, 20, 3.0, 80.0).Total() == 225
  {
  }

  /** Finishing 0.1 s late truncates -0.5 to 0; finishing 0.15 s early
      truncates 0.75 to 0 as well: fractions never round up. */
  lemma TimeBonusTruncates()
    ensures Score(false, 25, 25.1, 0.0).timeBonus == 0
    ensures Score(false, 25, 24.85, 0.0).timeBonus == 0
    ensures Score(false, 25, 24.7, 0.0).timeBonus == 1
  {
  }
}
